=== FILE: README.md ===
# Unified campaign builder: contacts, composer and campaign hooks in Dafny

This project models the logic behind the unified campaign builder's web
front end. The front end lets a user do five things:

- import contacts from a spreadsheet or from an external system;
- manage those contacts;
- compose one message for several channels (SMS, email, WhatsApp, RCS);
- preview and save a campaign;
- look at campaign analytics.

Each handler and effect listed in the table below is modelled as a pure
function from the state it reads to the state it writes. The handlers that
only copy what was typed into a field are not modelled one by one: the typed
values are parameters. Everything the browser or the backend decides is a
parameter too:

- the Supabase reply, or what it threw;
- the CSV and spreadsheet parsers' outcome;
- the webhook request's failure;
- the random draws;
- the ISO timestamp built from a date and a time.

Modules:

- `Results`: `Option`, `Result`, and JavaScript's `s || null` on a string.
- `Strings`: the JavaScript string operations the code relies on.
  - `trim` with the `\s` white-space set;
  - ASCII `toLowerCase`;
  - `includes`;
  - `split(',')` and `join`;
  - decimal rendering of numbers.
- `Seqs`: `filter` and `map` on arrays, and their algebra.
- `CrudList`: the shared shape of the two Supabase hooks. Each hook keeps a
  list, a loading flag and an error. Each fetch, create, update or delete
  either changes the list or records the error and leaves the list alone.
- `UseContacts`, `UseCampaigns`: the two hooks, over their row types and
  fallback messages.
- `FileUpload`: the import of contacts from a CSV or Excel file.
  - the per-row validator: name, email pattern, phone, tags;
  - the MIME gate;
  - the choice of parser and its error messages;
  - the parse report;
  - the hand-off of the valid rows.
- `ManageContacts`: the contact search, the create/edit form and its
  conversion to and from a contact row.
- `MessageComposer`: per-channel message generation and the effect that
  keeps one entry per selected channel. Generation covers the SMS
  truncation and opt-out, and the email, WhatsApp and RCS templates.
  Editing a channel also reports the first channel back to the parent.
- `DatabaseConnector`: the connection form, the connection test and the
  import gated on it. The mock batch is exactly what the code fabricates.
- `Analytics`: the status counts, the recent-campaign list and the badge
  styles.
- `CampaignPreview`: the reach estimate, the channel colours, the image
  line, and saving as a draft or scheduled.

The file import hands the valid rows to its caller unchanged and in file
order (`handleImport` in `src/components/contacts/FileUpload.tsx`). It does
not deduplicate or merge contacts, and neither does the model.

## Model

| member | source | states |
|---|---|---|
| Results.OrNull | src/pages/ManageContacts.tsx:48-49 | `s \|\| null`: null exactly for the empty string, otherwise the string itself |
| Strings.LeadingSpaces | src/components/contacts/FileUpload.tsx:46 | the count of leading white space: everything before it is white space and the character at it is not |
| Strings.TrailingSpaces | src/components/contacts/FileUpload.tsx:46 | the count of trailing white space: everything after it is white space and the character before it is not |
| Strings.LeadingSpacesUnique | src/components/contacts/FileUpload.tsx:46 | any position with only white space before it and none at it is the leading-space count |
| Strings.TrimStart | src/components/contacts/FileUpload.tsx:46 | the result is a suffix of the input, everything cut off is white space, and it does not start with white space |
| Strings.TrimEnd | src/components/contacts/FileUpload.tsx:46 | the result is a prefix of the input, everything cut off is white space, and it does not end with white space |
| Strings.Trim | src/components/contacts/FileUpload.tsx:46 | `trim()` is the piece of the input that starts after the leading white space, with only white space after it; it has no white space at either end, and is empty exactly when the input is all white space |
| Strings.TrimIsInfix | src/components/contacts/FileUpload.tsx:49 | the trimmed string is a contiguous piece of the input with only white space around it |
| Strings.TrimEmptyIffSpace | src/components/contacts/FileUpload.tsx:46 | `trim().length === 0` holds exactly for all-white-space strings |
| Strings.TrimEmptyMeansSpace | src/components/contacts/FileUpload.tsx:53 | a string whose trim is empty is all white space |
| Strings.SpaceStartTrimsAway | src/components/contacts/FileUpload.tsx:46 | trimming the start of an all-white-space string leaves nothing |
| Strings.AllSpaceConcat | src/components/contacts/FileUpload.tsx:46 | two all-white-space strings make an all-white-space string |
| Strings.TrimOfTrimmed | src/components/contacts/FileUpload.tsx:55-56 | trimming is idempotent: an already trimmed string is unchanged |
| Strings.TrimAfterSpace | src/pages/ManageContacts.tsx:50 | one leading white-space character does not change the trimmed result |
| Strings.TrimAfterSpaces | src/pages/ManageContacts.tsx:50 | any white-space padding in front does not change the trimmed result |
| Strings.TrimStartAfterSpaces | src/pages/ManageContacts.tsx:50 | any white-space padding in front does not change the start-trimmed result |
| Strings.TrimKeepsOut | src/components/contacts/FileUpload.tsx:70 | trimming never introduces a character that was not in the input (a comma-free piece stays comma-free) |
| Strings.LowerChar | src/pages/ManageContacts.tsx:38 | `toLowerCase` on one character: upper-case ASCII letters move to lower case, everything else is unchanged |
| Strings.Lower | src/pages/ManageContacts.tsx:38-39 | lower-casing keeps the length and acts character by character |
| Strings.Contains | src/pages/ManageContacts.tsx:38-40 | a string includes only needles no longer than itself, and one of its own length exactly when the two are equal |
| Strings.ContainsIffOccurs | src/pages/ManageContacts.tsx:38-40 | `includes` holds exactly when the needle occurs at some position of the string |
| Strings.ContainsEmpty | src/pages/ManageContacts.tsx:38-40 | every string includes the empty string |
| Strings.Split | src/pages/ManageContacts.tsx:50 | `split(',')` gives one piece more than there are commas, no piece contains a comma, and joining the pieces with commas gives back the input |
| Strings.SplitPrefix | src/pages/ManageContacts.tsx:50 | a comma-free prefix goes into the first piece, and the remaining pieces are those of the rest |
| Strings.SplitOfPiece | src/pages/ManageContacts.tsx:50 | a string without the separator splits into itself alone |
| Strings.SplitAtSeparator | src/pages/ManageContacts.tsx:50 | a string that starts with the separator splits into an empty piece and the pieces of the rest |
| Strings.Join | src/pages/ManageContacts.tsx:79 | `join(", ")` on the tag list; the function carries no contract of its own: what it gives is stated by Strings.JoinEnds, and that splitting undoes it by Strings.Split and Strings.SplitJoin |
| Strings.JoinEnds | src/pages/ManageContacts.tsx:79 | `join` of no items is empty; otherwise the result starts with the first item, ends with the last, and is at least as long as every item |
| Strings.SplitJoin | src/pages/ManageContacts.tsx:50-79 | splitting comma-free items joined with `", "` on the comma gives the first item back, and every other item with its padding in front |
| Strings.DigitChar | src/components/contacts/DatabaseConnector.tsx:124-126 | the character of a decimal digit is a digit whose value is that digit |
| Strings.NatToString | src/components/contacts/DatabaseConnector.tsx:124-126 | `String(n)` is a non-empty run of digits without a leading zero |
| Strings.NatToStringRoundTrip | src/components/contacts/DatabaseConnector.tsx:124-126 | reading the decimal rendering of `n` back gives `n` |
| Strings.NatToStringInjective | src/components/contacts/DatabaseConnector.tsx:124 | different numbers render differently |
| Strings.FourDigits | src/components/contacts/DatabaseConnector.tsx:126 | a number from 1000 to 9999 renders as four digits |
| Seqs.Filter | src/components/contacts/FileUpload.tsx:164 | `filter` keeps exactly the elements that pass, drawn from the input |
| Seqs.Map | src/components/contacts/FileUpload.tsx:93 | `map` keeps the length and applies the function at every position |
| Seqs.FilterIsSubsequence | src/hooks/useContacts.ts:83 | `filter` keeps the surviving elements in their original order |
| Seqs.FilterKeepsAll | src/pages/ManageContacts.tsx:37-41 | a test every element passes keeps the whole array |
| Seqs.FilterConcat | src/components/contacts/FileUpload.tsx:176-177 | filtering distributes over concatenation |
| Seqs.MapConcat | src/components/contacts/FileUpload.tsx:178 | mapping distributes over concatenation |
| Seqs.FilterCount | src/pages/ManageContacts.tsx:37-41 | `filter` keeps every copy of an element that passes and no copy of one that fails |
| Seqs.FilterPartition | src/components/contacts/FileUpload.tsx:164-165 | the rows that pass and the rows that fail add up to all rows, so the invalid count is the length minus the valid count |
| CrudList.ErrorMessage | src/hooks/useContacts.ts:44 | a thrown `Error` gives its own message and any other value the fallback; with a non-empty fallback the message is empty exactly for an `Error` whose message is empty |
| CrudList.Fail | src/hooks/useContacts.ts:43-47 | a failed operation records the thrown `Error`'s message, or the fallback for any other value, leaves the list and the loading flag, and returns no data with that same error |
| CrudList.Fetch | src/hooks/useContacts.ts:14-29 | loading ends; the returned rows, or none for a null reply, replace the list; a throw keeps the list and records its message or the fallback |
| CrudList.Create | src/hooks/useContacts.ts:31-48 | the stored row goes in front of the list and is returned; a throw changes nothing but the error |
| CrudList.Update | src/hooks/useContacts.ts:50-72 | every row with the id becomes the returned row and every other row is kept in place; a throw changes nothing but the error |
| CrudList.Delete | src/hooks/useContacts.ts:74-90 | no remaining row has the id, every other row is kept in order, and the count drops by the number removed; a throw changes nothing but the error |
| CrudList.FetchForgetsLocalEdits | src/hooks/useContacts.ts:14-29 | a fetch that returns rows sets the list to them, or to nothing for a null reply, whatever a create added locally before |
| CrudList.FetchKeepsStaleError | src/hooks/useContacts.ts:14-29 | a fetch that returns rows does not clear the error an earlier failed operation recorded |
| CrudList.UpdateOfAbsentId | src/hooks/useContacts.ts:61-65 | an update for an id not in the list leaves the list unchanged |
| CrudList.DeleteIdempotent | src/hooks/useContacts.ts:83 | deleting the same id twice is the same as deleting it once |
| UseContacts.FetchContacts | src/hooks/useContacts.ts:14-29 | the fetched contacts replace the list; a non-`Error` throw records "Failed to fetch contacts" |
| UseContacts.CreateContact | src/hooks/useContacts.ts:31-48 | the stored contact goes in front; a throw leaves the list and returns the `Error`'s message, or "Failed to create contact" for any other value |
| UseContacts.UpdateContact | src/hooks/useContacts.ts:50-72 | the contact with the id is replaced by the stored row; a throw leaves the list and returns the `Error`'s message, or "Failed to update contact" for any other value |
| UseContacts.DeleteContact | src/hooks/useContacts.ts:74-90 | the contacts with the id are gone, the rest kept in order, and the list shrinks by exactly the number removed; a throw leaves the list and returns the `Error`'s message, or "Failed to delete contact" for any other value |
| UseCampaigns.FetchCampaigns | src/hooks/useCampaigns.ts:14-29 | the fetched campaigns replace the list; a non-`Error` throw records "Failed to fetch campaigns" |
| UseCampaigns.CreateCampaign | src/hooks/useCampaigns.ts:31-48 | the stored campaign goes in front; a throw leaves the list and returns the `Error`'s message, or "Failed to create campaign" for any other value |
| UseCampaigns.UpdateCampaign | src/hooks/useCampaigns.ts:50-72 | the campaign with the id is replaced by the stored row; a throw leaves the list and returns the `Error`'s message, or "Failed to update campaign" for any other value |
| UseCampaigns.DeleteCampaign | src/hooks/useCampaigns.ts:74-90 | the campaigns with the id are gone, the rest kept in order, and the list shrinks by exactly the number removed; a throw leaves the list and returns the `Error`'s message, or "Failed to delete campaign" for any other value |
| FileUpload.MatchesEmailPattern | src/components/contacts/FileUpload.tsx:54-55 | a string the email regular expression accepts has at least five characters |
| FileUpload.EmailPatternMeaning | src/components/contacts/FileUpload.tsx:54-55 | the email regular expression accepts exactly a non-empty local part, one `@`, a non-empty domain part, a dot and a non-empty ending, none of them with white space or `@` |
| FileUpload.NormalizeTags | src/components/contacts/FileUpload.tsx:67-74 | no tag is empty; tags from a string are its comma-separated pieces, each trimmed, without the empty ones, so each is trimmed and comma-free; tags from an array are exactly its non-empty entries, in order; any other value gives no tags |
| FileUpload.StringTags | src/components/contacts/FileUpload.tsx:69-70 | the tags of a string are non-empty, trimmed and free of commas |
| FileUpload.ArrayTags | src/components/contacts/FileUpload.tsx:71-72 | the tags of an array are taken from it in order, hold every non-empty entry, and number exactly the entries that are not empty |
| FileUpload.CheckName | src/components/contacts/FileUpload.tsx:46-50 | a name is accepted exactly when it is a string that is not all white space, and it is kept trimmed |
| FileUpload.CheckEmail | src/components/contacts/FileUpload.tsx:53-60 | a blank or missing email is ignored; a given one is accepted, trimmed, exactly when it has the email shape |
| FileUpload.CheckPhone | src/components/contacts/FileUpload.tsx:63-65 | a phone is kept, trimmed and non-empty, exactly when it is given and not blank |
| FileUpload.Errors | src/components/contacts/FileUpload.tsx:46-59 | the error list is empty exactly when nothing failed, holds each message exactly for its failure, and lists the name's before the email's |
| FileUpload.ValidateContact | src/components/contacts/FileUpload.tsx:34-80 | a row is valid exactly when it has no errors, which is exactly when it has a name and any given email has the email shape; each error message appears exactly for its failure, in order; the kept name, email and phone are trimmed, and the tags are the normalised tags |
| FileUpload.TagStringRoundTrip | src/components/contacts/FileUpload.tsx:70 | non-empty trimmed comma-free tags joined with a comma and white-space padding come back unchanged from the tag normaliser |
| FileUpload.TrimmedPieces | src/components/contacts/FileUpload.tsx:70 | splitting such a joined string and trimming each piece gives the tags back |
| FileUpload.PaddedPiecesTrim | src/components/contacts/FileUpload.tsx:70 | pieces that are trimmed tags, each after the first behind the same white space, trim back to the tags |
| FileUpload.SelectFile | src/components/contacts/FileUpload.tsx:124-141 | a file of one of the three spreadsheet types replaces the chosen file and clears earlier results; no file, or any other type, changes nothing |
| FileUpload.RemoveFile | src/components/contacts/FileUpload.tsx:249-253 | Remove drops the file and the parsed contacts and sets the progress to zero, leaving the parsing flag |
| FileUpload.RemoveLeavesNothing | src/components/contacts/FileUpload.tsx:143-144 | after Remove, when no parse is in flight, parsing does nothing and reports nothing, an import offers no rows, and removing again changes nothing |
| FileUpload.RemoveThenSelect | src/components/contacts/FileUpload.tsx:124-141 | after Remove, picking an accepted file gives the same file and the same empty parsed list as picking it without removing first |
| FileUpload.ParserFor | src/components/contacts/FileUpload.tsx:154-158 | the CSV parser is chosen exactly for `text/csv`, the spreadsheet parser for the other types |
| FileUpload.AcceptedFileParser | src/components/contacts/FileUpload.tsx:124-158 | a newly accepted file goes to the CSV parser exactly when it is a CSV file, and to the spreadsheet parser exactly when it is one of the two Excel types |
| FileUpload.ParseCsv | src/components/contacts/FileUpload.tsx:82-101 | any reported CSV error rejects the file with its first message; otherwise every row is validated in order |
| FileUpload.ParseSheet | src/components/contacts/FileUpload.tsx:103-122 | the sheet's rows are validated in order; an exception or a read failure gives its own message |
| FileUpload.ParseFile | src/components/contacts/FileUpload.tsx:143-173 | with a file, parsing stops and a report is made; a success replaces the list with the validated rows and counts valid plus invalid as the total; a failure keeps the list |
| FileUpload.ToInsert | src/components/contacts/FileUpload.tsx:178-184 | the insert keeps the parsed name and tags, and keeps the email and the phone exactly when they are given and non-empty, sending null otherwise |
| FileUpload.NullIfEmpty | src/components/contacts/FileUpload.tsx:180-181 | `value \|\| null` drops exactly the missing or empty value |
| FileUpload.HandleImport | src/components/contacts/FileUpload.tsx:175-192 | nothing is imported exactly when no row is valid; otherwise the inserts are the valid rows, converted one by one in file order, so each valid row has its insert and every insert comes from a valid row |
| FileUpload.ImportKeepsOrder | src/components/contacts/FileUpload.tsx:176-185 | the inserts of two stretches of rows are the inserts of the first followed by those of the second |
| FileUpload.ValidRowWellFormed | src/components/contacts/FileUpload.tsx:34-80 | a row that passed validation gives an insert with a trimmed non-empty name, a well-shaped email if any, a trimmed phone if any, and no empty tag |
| FileUpload.ImportedRowSource | src/components/contacts/FileUpload.tsx:176-185 | every insert handed over comes from some valid parsed row |
| FileUpload.ImportedRowsWellFormed | src/components/contacts/FileUpload.tsx:175-192 | every insert imported from any file's rows is well formed |
| ManageContacts.MatchesSearch | src/pages/ManageContacts.tsx:37-40 | the empty search term matches every contact |
| ManageContacts.FilteredContacts | src/pages/ManageContacts.tsx:37-41 | the search shows exactly the contacts whose name or email contains the term case-insensitively, or whose phone contains it, in list order, each matching contact as many times as the list holds it |
| ManageContacts.EmptySearchKeepsAll | src/pages/ManageContacts.tsx:37-41 | an empty search shows every contact |
| ManageContacts.ToContactData | src/pages/ManageContacts.tsx:46-51 | the name is kept as typed; empty email and phone become null; an empty tag field gives no tags, otherwise tag `k` is the `k`-th comma-separated piece trimmed, one per piece, empty ones kept |
| ManageContacts.Prefill | src/pages/ManageContacts.tsx:73-82 | the form shows the contact's name, email and phone; its tags field is the tags joined with `", "`, and empty exactly when the contact has no tags or only one empty tag; splitting it at commas gives the first tag and then each further tag behind one space, when no tag holds a comma |
| ManageContacts.CommaSpacePieces | src/pages/ManageContacts.tsx:79 | a list joined with `", "` splits at its commas into the first item and each further item behind one space, when no item holds a comma |
| ManageContacts.EditSubmitRoundTrip | src/pages/ManageContacts.tsx:43-82 | opening a contact for editing and submitting the form unchanged saves the same contact data, for contacts without empty email, phone or a lone empty tag, and with trimmed comma-free tags |
| ManageContacts.Edit | src/pages/ManageContacts.tsx:73-82 | editing opens the dialog on that contact with the form pre-filled from it, leaving the list alone |
| ManageContacts.RequestFor | src/pages/ManageContacts.tsx:46-61 | the save sends the form's record, as an update under the edited contact's id exactly when a contact is being edited, and as a create otherwise |
| ManageContacts.Submit | src/pages/ManageContacts.tsx:43-71 | as written: the request is the form's; a stored row, and also an `Error` whose message is empty, close the dialog, clear the form and end the edit; any other throw leaves dialog, form and edit; a stored row goes in front or replaces the edited contact in place, and a throw leaves the list |
| ManageContacts.SubmitEmptyErrorLooksSaved | src/pages/ManageContacts.tsx:63-67 | a save that throws an `Error` with an empty message leaves the list as it was, yet clears the form, ends the edit and closes the dialog |
| ManageContacts.SubmitChecked | src/pages/ManageContacts.tsx:43-71 | corrected: the same request and the same list change, but the dialog is closed and the form cleared exactly when a row came back, and every throw leaves dialog, form and edit |
| ManageContacts.SubmitCheckedAgrees | src/pages/ManageContacts.tsx:63 | the two saves agree on every reply but an `Error` with an empty message, and on that one they leave the dialog in different states whenever it was open |
| ManageContacts.EditThenSubmit | src/pages/ManageContacts.tsx:46-82 | saving a contact opened for editing, unchanged, sends an update under that contact's id with its name, email, phone and tags, for contacts without empty email, phone or a lone empty tag, and with trimmed comma-free tags |
| ManageContacts.OpenChange | src/pages/ManageContacts.tsx:140-143 | opening the dialog only opens it; closing it also resets the form to empty and ends the edit (`resetForm`, lines 95-98); the list is untouched |
| ManageContacts.CloseAbandonsEdit | src/pages/ManageContacts.tsx:140-143 | closing the dialog during an edit means the next save creates a contact from the empty form |
| MessageComposer.SmsText | src/components/campaign/MessageComposer.tsx:46-50 | the SMS text keeps the first 140 characters and ends with the opt-out line; a text of at most 140 characters is kept whole and ends with " Text STOP to opt out."; a longer one becomes exactly 165 characters ending with "... Text STOP to opt out." |
| MessageComposer.SmsTextRoundTrip | src/components/campaign/MessageComposer.tsx:46-50 | dropping the notice from the SMS text gives back a short text whole, and a long text's first 140 characters |
| MessageComposer.CutShape | src/components/campaign/MessageComposer.tsx:48-49 | a text over 140 characters becomes its first 140 characters and the cut notice, 165 characters ending in the opt-out line |
| MessageComposer.KeepShape | src/components/campaign/MessageComposer.tsx:48-50 | a text of at most 140 characters is kept whole and followed by the opt-out notice |
| MessageComposer.SmsTextInjective | src/components/campaign/MessageComposer.tsx:46-50 | two texts of at most 140 characters with the same SMS version are the same text |
| MessageComposer.ChannelText | src/components/campaign/MessageComposer.tsx:42-61 | empty text, and a channel without a template, pass through; SMS text gets the opt-out treatment; email, WhatsApp and RCS text stands whole between that channel's opening and closing |
| MessageComposer.FormatFor | src/components/campaign/MessageComposer.tsx:40-67 | SMS carries no images, other channels all of them; only email has a subject; without text, or on an unknown channel, the text is unchanged; otherwise it is the channel's template around the text |
| MessageComposer.Unwrap | src/components/campaign/MessageComposer.tsx:51-60 | the text read back from between an opening and a closing rebuilds the string, and nothing is read back only when the string is not of that form |
| MessageComposer.UntemplateFormat | src/components/campaign/MessageComposer.tsx:51-60 | the text between a templated channel's opening and closing is the message's text |
| MessageComposer.Initial | src/components/campaign/MessageComposer.tsx:23-33 | the first state has one entry per channel with the message's text and images, and an empty subject for email only |
| MessageComposer.Regenerate | src/components/campaign/MessageComposer.tsx:36-81 | nothing is regenerated exactly when the message has neither text nor images; otherwise one formatted entry per selected channel, SMS without images |
| MessageComposer.FirstChannelUpdate | src/components/campaign/MessageComposer.tsx:73-79 | the parent hears about the first channel's text and images exactly when there is a non-empty first channel with an entry |
| MessageComposer.RegenerateTellsParent | src/components/campaign/MessageComposer.tsx:36-81 | after a regeneration the parent receives the first channel's formatted message |
| MessageComposer.FreshEntry | src/components/campaign/MessageComposer.tsx:89-94 | a newly selected channel starts with the message's text, no images on SMS, and an empty subject on email |
| MessageComposer.Sync | src/components/campaign/MessageComposer.tsx:84-106 | after a channel change there is exactly one entry per selected channel; entries already present are untouched and new ones are fresh |
| MessageComposer.SyncIdempotent | src/components/campaign/MessageComposer.tsx:84-106 | running the channel sync again for the same channels changes nothing |
| MessageComposer.MountKeepsInitial | src/components/campaign/MessageComposer.tsx:23-106 | the sync effect applied on mount to the first render's map leaves it unchanged, so the SMS entry keeps the message's images |
| MessageComposer.EditChannel | src/components/campaign/MessageComposer.tsx:108-123 | an edit replaces that channel's entry only, and the parent hears about it exactly when it is the first channel |
| MessageComposer.EditSurvivesSync | src/components/campaign/MessageComposer.tsx:84-123 | a sync to the same channels after an edit keeps the edit on a selected channel and drops an edit of an unselected one; so the result is the sync of the unedited map with that channel's entry replaced, or exactly that sync when the channel is not selected |
| DatabaseConnector.SetField | src/components/contacts/DatabaseConnector.tsx:61-63 | changing one field sets that field and leaves every other field as it was |
| DatabaseConnector.SetFieldToSame | src/components/contacts/DatabaseConnector.tsx:61-63 | writing a field's own value back leaves the settings unchanged |
| DatabaseConnector.TestStarted | src/components/contacts/DatabaseConnector.tsx:65-72 | without a platform nothing happens; otherwise testing starts and the status is reset |
| DatabaseConnector.TestConnection | src/components/contacts/DatabaseConnector.tsx:65-108 | without a platform nothing changes; otherwise testing ends with success or error, and error exactly when a Zapier webhook request was made and threw |
| DatabaseConnector.ImportEnabled | src/components/contacts/DatabaseConnector.tsx:357 | the import button is enabled exactly when the last test succeeded and no import is running |
| DatabaseConnector.MockAt | src/components/contacts/DatabaseConnector.tsx:123-129 | mock contact `i` is "Contact i+1", with email `contacti+1@platform.com`, tags the platform and "imported", and a phone "+1-555-" followed by four digits that read back as the draw plus 1000, so from 1000 to 9999 |
| DatabaseConnector.MockBatch | src/components/contacts/DatabaseConnector.tsx:123 | a batch holds between 10 and 59 mock contacts, contact `i` at position `i` |
| DatabaseConnector.MockNamesDistinct | src/components/contacts/DatabaseConnector.tsx:124 | no two mock contacts of a batch share a name |
| DatabaseConnector.ImportContacts | src/components/contacts/DatabaseConnector.tsx:110-138 | a batch is emitted exactly when the last test succeeded, and then importing has ended; otherwise nothing changes |
| DatabaseConnector.TestThenImport | src/components/contacts/DatabaseConnector.tsx:65-138 | with a platform chosen, an import right after a test emits the platform's batch exactly when the test did not end in error; without one, it emits exactly when the earlier status was success |
| DatabaseConnector.ConfigChangeKeepsImport | src/components/contacts/DatabaseConnector.tsx:61-63 | a configuration change leaves the status alone: after a successful test, choosing another platform keeps the import enabled, and the batch names the new platform |
| Analytics.CountStatus | src/pages/Analytics.tsx:36-38 | a status count never exceeds the number of campaigns |
| Analytics.CountStatusIsFilterLength | src/pages/Analytics.tsx:36-38 | the count is the length of the list filtered on that status |
| Analytics.Summarize | src/pages/Analytics.tsx:35-38 | the total is the number of campaigns; the active, completed and draft figures are the lengths of the list filtered on each status, and together never exceed the total |
| Analytics.DistinctStatusesBound | src/pages/Analytics.tsx:36-38 | the counts of three different statuses add up to at most the number of campaigns |
| Analytics.CountStatusAppend | src/pages/Analytics.tsx:36-38 | counting over two stretches of campaigns adds up |
| Analytics.Recent | src/pages/Analytics.tsx:134 | the recent list is the first five campaigns, or all when there are fewer, in order |
| Analytics.RecentStable | src/pages/Analytics.tsx:134 | taking the recent campaigns twice changes nothing, and campaigns after the first five never show |
| Analytics.StatusBadge | src/pages/Analytics.tsx:164-170 | active, completed and draft each get their own style, exactly for that status, and every other status gets the primary style |
| Analytics.ChannelIcon | src/pages/Analytics.tsx:144-152 | SMS and email get their own style, exactly for those channels, and every other channel, RCS included, gets the WhatsApp style |
| Analytics.StyleClasses | src/pages/Analytics.tsx:144-147 | the class strings of the three icon styles, as the source spells them; the function carries no contract of its own: that they differ is Analytics.StyleClassesDistinct, and which channel gets which is Analytics.ChannelBadge |
| Analytics.StyleClassesDistinct | src/pages/Analytics.tsx:144-147 | the three icon styles' class strings are pairwise different |
| Analytics.ChannelBadge | src/pages/Analytics.tsx:144-147 | a channel's badge has the SMS classes exactly for "sms", the email classes exactly for "email", and the WhatsApp classes for every other channel |
| CampaignPreview.EstimatedReach | src/components/campaign/CampaignPreview.tsx:53 | the reach is the sum over the channels of the recipients shown on each channel card, and is zero exactly when there are no channels or no contacts |
| CampaignPreview.ReachIsSumOfCards | src/components/campaign/CampaignPreview.tsx:171-182 | contacts times channels equals the per-channel recipient counts added up |
| CampaignPreview.ChannelColor | src/components/campaign/CampaignPreview.tsx:44-51 | SMS, email and WhatsApp each get their colour, and the muted style goes exactly to every other channel |
| CampaignPreview.ChannelColorsDistinct | src/components/campaign/CampaignPreview.tsx:44-51 | SMS, email and WhatsApp get three different colours |
| CampaignPreview.ImageCountLine | src/components/campaign/CampaignPreview.tsx:189-193 | the image line is shown, with the image count, exactly on non-SMS channels of a message with images |
| CampaignPreview.Payload | src/components/campaign/CampaignPreview.tsx:94-102 | the saved row carries the campaign's name, channels, message and contacts unchanged, with the given status and time |
| CampaignPreview.SaveDraft | src/components/campaign/CampaignPreview.tsx:59-79 | a draft row without a time is sent; on success it goes in front of the campaign list, on failure the list stays |
| CampaignPreview.OpenSchedule | src/components/campaign/CampaignPreview.tsx:81-83 | scheduling opens the dialog on the date and time it last held |
| CampaignPreview.CancelSchedule | src/components/campaign/CampaignPreview.tsx:350 | Cancel closes the dialog and keeps the date and time typed so far |
| CampaignPreview.CancelThenReopen | src/components/campaign/CampaignPreview.tsx:81-83 | cancelling and scheduling again gives back the open dialog as it was, and confirming from there does what confirming before would have |
| CampaignPreview.ConfirmSchedule | src/components/campaign/CampaignPreview.tsx:85-116 | as written: a scheduled row carrying the draft and the timestamp is sent exactly when both date and time are given and make a valid timestamp; a stored row, and also an `Error` whose message is empty, close and clear the dialog; any other throw keeps it; a stored row goes in front of the list and a throw leaves it |
| CampaignPreview.ConfirmScheduleEmptyErrorLooksSaved | src/components/campaign/CampaignPreview.tsx:105-109 | a schedule that throws an `Error` with an empty message adds no row and records the empty error, yet closes the dialog and wipes date and time |
| CampaignPreview.ConfirmScheduleChecked | src/components/campaign/CampaignPreview.tsx:85-116 | corrected: the same row and the same list change, but once a row is sent the dialog is closed and cleared exactly when a row came back, and every throw keeps it |
| CampaignPreview.ConfirmScheduleCheckedAgrees | src/components/campaign/CampaignPreview.tsx:105 | the two confirmations agree on every reply but an `Error` with an empty message, and on that one they leave different dialogs whenever a row was sent |
| CampaignPreview.DraftAndScheduleSameCampaign | src/components/campaign/CampaignPreview.tsx:59-102 | once a schedule is sent, its row is the draft row with status "scheduled" and the timestamp instead of "draft" and no time; the two rows differ in exactly those fields |
| CampaignPreview.ConfirmScheduleOnce | src/components/campaign/CampaignPreview.tsx:85-116 | after a successful confirmation, confirming again sends nothing and changes nothing |

## Left out

- The Papa Parse and SheetJS parsers and the `FileReader`: their outcome, rows or error, is a parameter of `ParseCsv` and `ParseSheet`.
- Raw rows: the `email` and `phone` cells are strings or absent; a non-string value there would make `trim` throw in the source, and that path is not modelled.
- Raw rows: tag arrays are arrays of strings; non-string entries are not modelled.
- Supabase, the waits (`setTimeout`), `fetch`, `Math.random`, `Date` and `toISOString`: replies, throws, random draws and timestamps are parameters.
- The intermediate progress values (10, 30, 70) and the `parsing` flag during an upload: only the state after the handler ends is modelled.
- The toasts: the messages are not part of the state.
- The platform display names and per-platform form fields (`renderPlatformFields`): they are presentational.
- `estimatedCost` in the campaign preview: it is floating-point arithmetic.
- The icon components (`getChannelIcon`): they are JSX.
- The change handlers of the text inputs (the contact form fields, the search box, the schedule date and time, the connector fields other than through `DatabaseConnector.SetField`): each only copies the typed value into state, and the typed values are parameters of the handlers that read them.
- The `handleDelete` confirmation dialog in the contact page: `window.confirm` is browser I/O. The deletion itself is `UseContacts.DeleteContact`.
- Page routing in `src/pages/Index.tsx`: it only chooses which view to show.
- The order in which React runs effects and batches state updates: each effect is modelled as one step.
- Clicks during an `await`: each async handler is modelled as one uninterrupted step, so interleavings are not modelled. In the source, Remove stays enabled while a parse runs (only Parse is disabled, `FileUpload.tsx` line 242), and a parse that finishes after Remove still fills the parsed list, which the preview and Import then offer. Likewise Save in `ManageContacts.tsx` and Confirm in `CampaignPreview.tsx` can be clicked again while the first request is pending, and each click sends its own row.
- The campaign builder that assembles the campaign for the preview is not part of this model.
- Strings.LowerChar and Strings.Lower: lower-case ASCII letters only; the source's `toLowerCase` also maps other Unicode letters.
- Strings.Trim: the white-space set is the one JavaScript's `trim` and `\s` use, over code points; strings are sequences of code points, not UTF-16 units.
- MessageComposer.SmsText: `substring(0, 140)` is taken over code points, whereas the source counts UTF-16 units, so a surrogate pair counts once here.
- The mount cascade in `MessageComposer`: on mount the regeneration effect also tells the parent the first channel's formatted text, and the parent's new message would run the regeneration again. Only single effect steps are modelled (`Regenerate`, `Sync`, and `MountKeepsInitial` for the map that survives the first commit).
- The WhatsApp and RCS marks (`GreetingMark`, `ReplyMark`, `RcsMark`) are opaque constants. They are the four characters each that `MessageComposer.tsx` holds, which are UTF-8 emoji bytes read as Windows-1252; what a browser shows for them is not modelled.

## Findings

| source | as written | input that shows it | evidently intended | confidence | as-written member | corrected member |
|---|---|---|---|---|---|---|
| src/pages/ManageContacts.tsx:63 | `if (!result.error)` treats the reply as a success; the hook returns `err.message` (src/hooks/useContacts.ts:44), which is `""` for an `Error` with an empty message | a create or update that throws `new Error("")` | a failed save keeps the dialog, the form and the edit, so the user can retry | not executed | ManageContacts.SubmitEmptyErrorLooksSaved | ManageContacts.SubmitChecked |
| src/components/campaign/CampaignPreview.tsx:105 | `if (!result.error)` treats the reply as a success; the hook returns `err.message` (src/hooks/useCampaigns.ts:44), which is `""` for an `Error` with an empty message | a schedule whose create throws `new Error("")` | a failed schedule keeps the dialog with its date and time | not executed | CampaignPreview.ConfirmScheduleEmptyErrorLooksSaved | CampaignPreview.ConfirmScheduleChecked |

=== FILE: analytics.dfy ===
/** The analytics page (src/pages/Analytics.tsx): the campaign counts by
    status, the list of recent campaigns, and the badge styling chosen for
    each status and channel. */
module Analytics {
  import opened UseCampaigns
  import opened Seqs

  /** How many campaigns have the given status. */
  function CountStatus(cs: seq<Campaign>, status: string): (n: nat)
    ensures n <= |cs|
  {
    if |cs| == 0 then 0
    else (if cs[0].status == status then 1 else 0) + CountStatus(cs[1..], status)
  }

  /** `c => c.status === status`, the test the page filters with. */
  function HasStatus(status: string): Campaign -> bool {
    (c: Campaign) => c.status == status
  }

  /** The count is the length of the page's filtered list. */
  lemma {:induction false} CountStatusIsFilterLength(cs: seq<Campaign>, status: string)
    ensures CountStatus(cs, status) == |Filter(HasStatus(status), cs)|
  {
    if |cs| > 0 {
      CountStatusIsFilterLength(cs[1..], status);
    }
  }

  /** The four overview figures. */
  datatype Overview = Overview(total: nat, active: nat, completed: nat, draft: nat)

  /** The overview cards: the total, and how many campaigns are active,
      completed and drafts; the three never add up to more than the total. */
  function Summarize(cs: seq<Campaign>): (o: Overview)
    ensures o.total == |cs|
    ensures o.active <= o.total && o.completed <= o.total && o.draft <= o.total
    ensures o.active + o.completed + o.draft <= o.total
    ensures o.active == |Filter(HasStatus("active"), cs)|
    ensures o.completed == |Filter(HasStatus("completed"), cs)|
    ensures o.draft == |Filter(HasStatus("draft"), cs)|
  {
    CountStatusIsFilterLength(cs, "active");
    CountStatusIsFilterLength(cs, "completed");
    CountStatusIsFilterLength(cs, "draft");
    DistinctStatusesBound(cs, "active", "completed", "draft");
    Overview(|cs|, CountStatus(cs, "active"), CountStatus(cs, "completed"), CountStatus(cs, "draft"))
  }

  /** Counts of three different statuses never exceed the number of
      campaigns together. */
  lemma {:induction false} DistinctStatusesBound(cs: seq<Campaign>, a: string, b: string, c: string)
    requires a != b && b != c && a != c
    ensures CountStatus(cs, a) + CountStatus(cs, b) + CountStatus(cs, c) <= |cs|
  {
    if |cs| > 0 {
      DistinctStatusesBound(cs[1..], a, b, c);
    }
  }

  /** The campaigns of one status and those of every other status add up
      to all of them. */
  lemma {:induction false} CountStatusAppend(cs: seq<Campaign>, ds: seq<Campaign>, status: string)
    ensures CountStatus(cs + ds, status) == CountStatus(cs, status) + CountStatus(ds, status)
  {
    if |cs| == 0 {
      assert cs + ds == ds;
    } else {
      assert (cs + ds)[1..] == cs[1..] + ds;
      CountStatusAppend(cs[1..], ds, status);
    }
  }

  /** `campaigns.slice(0, 5)`: the first five campaigns, or all of them when
      there are fewer, in order. */
  function Recent(cs: seq<Campaign>): (r: seq<Campaign>)
    ensures |r| == if |cs| < 5 then |cs| else 5
    ensures forall i | 0 <= i < |r| :: r[i] == cs[i]
  {
    if |cs| <= 5 then cs else cs[..5]
  }

  /** Taking the recent campaigns of the recent campaigns changes nothing,
      and a longer list's recent campaigns are those of any prefix of at
      least five. */
  lemma RecentStable(cs: seq<Campaign>, ds: seq<Campaign>)
    ensures Recent(Recent(cs)) == Recent(cs)
    ensures |cs| >= 5 ==> Recent(cs + ds) == Recent(cs)
  {
    if |cs| >= 5 {
      assert (cs + ds)[..5] == cs[..5];
    }
  }

  const ActiveBadge := "bg-success text-success-foreground"
  const CompletedBadge := "bg-muted"
  const DraftBadge := "bg-warning text-warning-foreground"
  const OtherBadge := "bg-primary text-primary-foreground"

  /** The status badge's classes: one style each for active, completed and
      draft, and the primary style for every other status. */
  function StatusBadge(status: string): (cls: string)
    ensures cls == OtherBadge <==> status !in {"active", "completed", "draft"}
    ensures cls == ActiveBadge <==> status == "active"
    ensures cls == CompletedBadge <==> status == "completed"
    ensures cls == DraftBadge <==> status == "draft"
  {
    assert ActiveBadge[3] != CompletedBadge[3] && ActiveBadge[3] != DraftBadge[3] && ActiveBadge[3] != OtherBadge[3];
    assert CompletedBadge[3] != DraftBadge[3] && CompletedBadge[3] != OtherBadge[3] && DraftBadge[3] != OtherBadge[3];
    if status == "active" then ActiveBadge
    else if status == "completed" then CompletedBadge
    else if status == "draft" then DraftBadge
    else OtherBadge
  }

  /** The icon styles a channel can get in the recent list. */
  datatype ChannelStyle = SmsStyle | EmailStyle | WhatsAppStyle

  /** The channel icon: SMS and email have their own; every other channel,
      RCS included, is drawn with the WhatsApp styling. */
  function ChannelIcon(channel: string): (st: ChannelStyle)
    ensures st == SmsStyle <==> channel == "sms"
    ensures st == EmailStyle <==> channel == "email"
    ensures st == WhatsAppStyle <==> channel != "sms" && channel != "email"
  {
    if channel == "sms" then SmsStyle
    else if channel == "email" then EmailStyle
    else WhatsAppStyle
  }

  /** The classes each icon style is drawn with: the background and text
      colours of that style's own channel. */
  function StyleClasses(st: ChannelStyle): string {
    match st
    case SmsStyle => "bg-channel-sms/10 text-channel-sms"
    case EmailStyle => "bg-channel-email/10 text-channel-email"
    case WhatsAppStyle => "bg-channel-whatsapp/10 text-channel-whatsapp"
  }

  /** No two icon styles share their classes. */
  lemma StyleClassesDistinct(a: ChannelStyle, b: ChannelStyle)
    ensures StyleClasses(a) == StyleClasses(b) <==> a == b
  {
    if a != b {
      assert StyleClasses(a)[11] != StyleClasses(b)[11];
    }
  }

  /** The classes of a channel's badge in the recent list: the SMS and email
      colours exactly for those channels, and the WhatsApp colours for every
      other channel. */
  function ChannelBadge(channel: string): (cls: string)
    ensures cls == StyleClasses(SmsStyle) <==> channel == "sms"
    ensures cls == StyleClasses(EmailStyle) <==> channel == "email"
    ensures cls == StyleClasses(WhatsAppStyle) <==> channel != "sms" && channel != "email"
  {
    StyleClassesDistinct(ChannelIcon(channel), SmsStyle);
    StyleClassesDistinct(ChannelIcon(channel), EmailStyle);
    StyleClassesDistinct(ChannelIcon(channel), WhatsAppStyle);
    StyleClasses(ChannelIcon(channel))
  }
}

=== FILE: campaign_preview.dfy ===
/** The campaign preview (src/components/campaign/CampaignPreview.tsx): the
    reach estimate, the channel colours, the image-count line, and the two
    ways of saving the campaign, as a draft or scheduled. Turning the chosen
    date and time into an ISO timestamp is not modelled: its result, or its
    failure, is a parameter. */
module CampaignPreview {
  import opened Results
  import opened CrudList
  import opened UseCampaigns

  /** The campaign being built (the builder that assembles it is not part of
      this model): its name, channels, message and chosen contact ids. */
  datatype Draft = Draft(name: string, channels: seq<string>, message: Message, contacts: seq<string>)

  /** The row sent to the campaigns table (its `user_id` is left to the
      database's row-level security and not modelled). */
  datatype CampaignInsert = CampaignInsert(
    name: string,
    channels: seq<string>,
    message: Message,
    selectedContacts: seq<string>,
    status: string,
    scheduledAt: Option<string>)

  /** The recipients shown on each channel's card, added up over the
      channels. */
  function RecipientsOverChannels(channels: seq<string>, contacts: nat): nat {
    if |channels| == 0 then 0 else contacts + RecipientsOverChannels(channels[1..], contacts)
  }

  /** `estimatedReach`: the number of messages, one per contact per channel. */
  function EstimatedReach(d: Draft): (n: nat)
    ensures n == RecipientsOverChannels(d.channels, |d.contacts|)
    ensures |d.channels| == 0 || |d.contacts| == 0 <==> n == 0
  {
    ReachIsSumOfCards(d.channels, |d.contacts|);
    |d.contacts| * |d.channels|
  }

  /** Contacts times channels is the sum of the per-channel recipient counts. */
  lemma {:induction false} ReachIsSumOfCards(channels: seq<string>, contacts: nat)
    ensures RecipientsOverChannels(channels, contacts) == contacts * |channels|
  {
    if |channels| > 0 {
      ReachIsSumOfCards(channels[1..], contacts);
    }
  }

  /** `getChannelColor`: a colour each for SMS, email and WhatsApp, and the
      muted style for every other channel. */
  function ChannelColor(channel: string): (cls: string)
    ensures cls == "bg-muted" <==> channel !in {"sms", "email", "whatsapp"}
    ensures channel == "sms" ==> cls == "bg-channel-sms text-white"
    ensures channel == "email" ==> cls == "bg-channel-email text-white"
    ensures channel == "whatsapp" ==> cls == "bg-channel-whatsapp text-white"
  {
    if channel == "sms" then "bg-channel-sms text-white"
    else if channel == "email" then "bg-channel-email text-white"
    else if channel == "whatsapp" then "bg-channel-whatsapp text-white"
    else "bg-muted"
  }

  /** The three coloured channels get three different colours. */
  lemma ChannelColorsDistinct(a: string, b: string)
    requires a in {"sms", "email", "whatsapp"} && b in {"sms", "email", "whatsapp"}
    requires a != b
    ensures ChannelColor(a) != ChannelColor(b)
  {
    assert "bg-channel-sms text-white"[11] != "bg-channel-email text-white"[11];
    assert "bg-channel-sms text-white"[11] != "bg-channel-whatsapp text-white"[11];
    assert "bg-channel-email text-white"[11] != "bg-channel-whatsapp text-white"[11];
  }

  /** The "+n images" line on a channel's card: shown with the image count
      on every channel but SMS, and only when there is an image. */
  function ImageCountLine(channel: string, m: Message): (r: Option<nat>)
    ensures r.Some? <==> channel != "sms" && |m.images| > 0
    ensures r.Some? ==> r.value == |m.images| && r.value > 0
  {
    if |m.images| > 0 && channel != "sms" then Some(|m.images|) else None
  }

  /** The row a save sends: the campaign's fields unchanged, with a status
      and, when scheduled, the time. */
  function Payload(d: Draft, status: string, at: Option<string>): (p: CampaignInsert)
    ensures p.name == d.name && p.channels == d.channels && p.message == d.message
    ensures p.selectedContacts == d.contacts
    ensures p.status == status && p.scheduledAt == at
  {
    CampaignInsert(d.name, d.channels, d.message, d.contacts, status, at)
  }

  /** `handleSaveDraft`: a draft row is always sent; the hook's list changes
      as the hook says. */
  function SaveDraft(store: ListState<Campaign>, d: Draft, r: Backend<Campaign>): (out: (ListState<Campaign>, CampaignInsert))
    ensures out.1.status == "draft" && out.1.scheduledAt.None?
    ensures out.1.name == d.name && out.1.channels == d.channels
    ensures out.1.message == d.message && out.1.selectedContacts == d.contacts
    ensures r.Returned? ==> out.0.items == [r.data] + store.items
    ensures r.Threw? ==> out.0.items == store.items
  {
    (CreateCampaign(store, r).0, Payload(d, "draft", None))
  }

  /** The scheduling dialog. */
  datatype Schedule = Schedule(open: bool, date: string, time: string)

  /** `handleScheduleCampaign`: the dialog opens on whatever date and time it
      last held. */
  function OpenSchedule(dlg: Schedule): (dlg': Schedule)
    ensures dlg'.open
    ensures dlg'.date == dlg.date && dlg'.time == dlg.time
  {
    dlg.(open := true)
  }

  /** The dialog's Cancel button, and its `onOpenChange`: only the open flag
      changes, and the date and time typed so far stay. */
  function CancelSchedule(dlg: Schedule): (dlg': Schedule)
    ensures !dlg'.open
    ensures dlg'.date == dlg.date && dlg'.time == dlg.time
  {
    dlg.(open := false)
  }

  /** Cancelling forgets nothing: reopening gives back the dialog as it was,
      and confirming from there sends what confirming before would have. */
  lemma CancelThenReopen(store: ListState<Campaign>, dlg: Schedule, d: Draft, iso: Option<string>, r: Backend<Campaign>)
    requires dlg.open
    ensures OpenSchedule(CancelSchedule(dlg)) == dlg
    ensures ConfirmScheduleChecked(store, OpenSchedule(CancelSchedule(dlg)), d, iso, r) == ConfirmScheduleChecked(store, dlg, d, iso, r)
  {
  }

  /** `handleConfirmSchedule`, as written: without both a date and a time, or
      when they make no valid timestamp (`iso` is `None`), nothing is sent and
      nothing changes. Otherwise a scheduled row with the timestamp is sent;
      the dialog closes and its fields are cleared when `!result.error` holds,
      which includes an `Error` whose message is empty, and stay otherwise. */
  function ConfirmSchedule(store: ListState<Campaign>, dlg: Schedule, d: Draft, iso: Option<string>, r: Backend<Campaign>)
    : (out: (ListState<Campaign>, Schedule, Option<CampaignInsert>))
    ensures dlg.date == "" || dlg.time == "" || iso.None? ==> out == (store, dlg, None)
    ensures out.2.Some? ==>
      && out.2.value.status == "scheduled" && out.2.value.scheduledAt == iso
      && out.2.value.name == d.name && out.2.value.channels == d.channels
      && out.2.value.message == d.message && out.2.value.selectedContacts == d.contacts
    ensures out.2.Some? && (r.Returned? || r == Threw(ErrorValue(""))) ==> out.1 == Schedule(false, "", "")
    ensures out.2.Some? && r.Threw? && r != Threw(ErrorValue("")) ==> out.1 == dlg
    ensures out.2.Some? && r.Returned? ==> out.0.items == [r.data] + store.items
    ensures out.2.Some? && r.Threw? ==> out.0.items == store.items
    ensures out.2.Some? <==> dlg.date != "" && dlg.time != "" && iso.Some?
  {
    if dlg.date == "" || dlg.time == "" then (store, dlg, None)
    else if iso.None? then (store, dlg, None)
    else
      var payload := Payload(d, "scheduled", iso);
      var (store', reply) := CreateCampaign(store, r);
      if ReadsAsSuccess(reply) then (store', Schedule(false, "", ""), Some(payload))
      else (store', dlg, Some(payload))
  }

  /** A save that throws an `Error` with an empty message reads as scheduled:
      the dialog closes and its fields are wiped, though no row was added. */
  lemma ConfirmScheduleEmptyErrorLooksSaved(store: ListState<Campaign>, dlg: Schedule, d: Draft, iso: Option<string>)
    requires dlg.date != "" && dlg.time != "" && iso.Some?
    ensures var out := ConfirmSchedule(store, dlg, d, iso, Threw(ErrorValue("")));
      && out.0.items == store.items && out.0.error == Some("")
      && out.1 == Schedule(false, "", "")
  {
  }

  /** `handleConfirmSchedule` with the reply checked for any error: the
      dialog is cleared exactly when the row was added. */
  function ConfirmScheduleChecked(store: ListState<Campaign>, dlg: Schedule, d: Draft, iso: Option<string>, r: Backend<Campaign>)
    : (out: (ListState<Campaign>, Schedule, Option<CampaignInsert>))
    ensures dlg.date == "" || dlg.time == "" || iso.None? ==> out == (store, dlg, None)
    ensures out.2 == ConfirmSchedule(store, dlg, d, iso, r).2
    ensures out.2.Some? ==> out.0 == CreateCampaign(store, r).0
    ensures out.2.Some? ==> (out.1 == Schedule(false, "", "") <==> r.Returned?)
    ensures out.2.Some? && r.Threw? ==> out.1 == dlg && out.0.items == store.items
  {
    if dlg.date == "" || dlg.time == "" then (store, dlg, None)
    else if iso.None? then (store, dlg, None)
    else
      var payload := Payload(d, "scheduled", iso);
      var (store', reply) := CreateCampaign(store, r);
      if reply.error.None? then (store', Schedule(false, "", ""), Some(payload))
      else (store', dlg, Some(payload))
  }

  /** The two confirms agree on every reply but an `Error` with an empty
      message, and on that one they part whenever a row was sent. */
  lemma ConfirmScheduleCheckedAgrees(store: ListState<Campaign>, dlg: Schedule, d: Draft, iso: Option<string>, r: Backend<Campaign>)
    ensures r != Threw(ErrorValue("")) ==>
      ConfirmSchedule(store, dlg, d, iso, r) == ConfirmScheduleChecked(store, dlg, d, iso, r)
    ensures r == Threw(ErrorValue("")) && dlg.date != "" && dlg.time != "" && iso.Some? ==>
      ConfirmSchedule(store, dlg, d, iso, r).1 != ConfirmScheduleChecked(store, dlg, d, iso, r).1
  {
  }

  /** Saving a draft and scheduling send the same campaign: once a schedule
      is sent, its row is the draft row with the status "scheduled" and the
      timestamp in place of "draft" and no time, whatever either reply was. */
  lemma DraftAndScheduleSameCampaign(store: ListState<Campaign>, dlg: Schedule, d: Draft, iso: Option<string>,
                                     r: Backend<Campaign>, r': Backend<Campaign>)
    requires dlg.date != "" && dlg.time != "" && iso.Some?
    ensures var draft := SaveDraft(store, d, r).1;
      var scheduled := ConfirmScheduleChecked(store, dlg, d, iso, r').2;
      && scheduled.Some?
      && scheduled.value == draft.(status := "scheduled", scheduledAt := iso)
      && draft.status != scheduled.value.status && draft.scheduledAt != scheduled.value.scheduledAt
  {
  }

  /** A successful confirmation clears the dialog, so confirming again right
      away sends nothing and changes nothing. */
  lemma ConfirmScheduleOnce(store: ListState<Campaign>, dlg: Schedule, d: Draft, iso: Option<string>, r: Backend<Campaign>,
                            iso': Option<string>, r': Backend<Campaign>)
    ensures var out := ConfirmScheduleChecked(store, dlg, d, iso, r);
      out.2.Some? && r.Returned? ==>
        ConfirmScheduleChecked(out.0, out.1, d, iso', r') == (out.0, out.1, None)
  {
  }
}

=== FILE: crud_list.dfy ===
/** The local list state shared by the two data hooks (useContacts and
    useCampaigns): after each backend call the hook updates its in-memory
    list of rows and its error, without fetching again. The backend call
    itself is not modelled: it reaches this module as the row it returned or
    the value it threw. */
module CrudList {
  import opened Results
  import opened Seqs

  /** A value thrown in a hook's `try` block: an `Error`, which carries a
      message, or any other value. */
  datatype Thrown = ErrorValue(message: string) | OtherValue

  /** How a backend call settled. */
  datatype Backend<T> = Returned(data: T) | Threw(thrown: Thrown)

  /** A hook's state: its rows, its loading flag, and the last error. */
  datatype ListState<T> = ListState(items: seq<T>, loading: bool, error: Option<string>)

  /** What a create or update call resolves to: `{ data, error }`. A delete
      call resolves to `{ error }`, which is the same with no data. */
  datatype Reply<T> = Reply(data: Option<T>, error: Option<string>)

  /** The `catch` clause's message: the error's own message, or the hook's
      fallback text. */
  function ErrorMessage(t: Thrown, fallback: string): (m: string)
    ensures t.ErrorValue? ==> m == t.message
    ensures t.OtherValue? ==> m == fallback
    ensures fallback != "" ==> (m == "" <==> t == ErrorValue(""))
  {
    match t
    case ErrorValue(m) => m
    case OtherValue => fallback
  }

  /** `!result.error`, the test the pages apply to a reply: JavaScript reads
      a null error and an empty message alike as success. */
  predicate ReadsAsSuccess<T>(rep: Reply<T>) {
    rep.error.None? || rep.error.value == ""
  }

  /** The failed path shared by every call: the rows stay as they were, the
      error is recorded, and the reply carries it. */
  function Fail<T>(st: ListState<T>, t: Thrown, fallback: string): (out: (ListState<T>, Reply<T>))
    ensures out.0.items == st.items && out.0.loading == st.loading
    ensures out.0.error == Some(ErrorMessage(t, fallback)) && out.1 == Reply(None, out.0.error)
  {
    var msg := ErrorMessage(t, fallback);
    (st.(error := Some(msg)), Reply(None, Some(msg)))
  }

  /** The fetch: its rows, or none when the backend returned `null`, replace
      the list; a failure keeps the list and records the error. Loading has
      ended on every path. */
  function Fetch<T>(st: ListState<T>, r: Backend<Option<seq<T>>>, fallback: string): (st': ListState<T>)
    ensures !st'.loading
    ensures r.Returned? && r.data.Some? ==> st'.items == r.data.value && st'.error == st.error
    ensures r.Returned? && r.data.None? ==> st'.items == [] && st'.error == st.error
    ensures r.Threw? ==> st'.items == st.items && st'.error == Some(ErrorMessage(r.thrown, fallback))
  {
    match r
    case Returned(data) => st.(items := data.GetOr([]), loading := false)
    case Threw(t) => st.(loading := false, error := Some(ErrorMessage(t, fallback)))
  }

  /** A create: the returned row goes in front of the list. */
  function Create<T>(st: ListState<T>, r: Backend<T>, fallback: string): (out: (ListState<T>, Reply<T>))
    ensures r.Returned? ==>
      && |out.0.items| == |st.items| + 1
      && out.0.items[0] == r.data && out.0.items[1..] == st.items
      && out.0.error == st.error && out.1 == Reply(Some(r.data), None)
    ensures r.Threw? ==> out == Fail(st, r.thrown, fallback)
  {
    match r
    case Returned(data) => (st.(items := [data] + st.items), Reply(Some(data), None))
    case Threw(t) => Fail(st, t, fallback)
  }

  /** `row => key(row) === id ? data : row` */
  function ReplaceWith<T>(key: T -> string, id: string, data: T): T -> T {
    x => if key(x) == id then data else x
  }

  /** An update: every row whose key is `id` is replaced by the returned row,
      and every other row stays where it is. */
  function Update<T>(key: T -> string, st: ListState<T>, id: string, r: Backend<T>, fallback: string)
    : (out: (ListState<T>, Reply<T>))
    ensures r.Returned? ==>
      && |out.0.items| == |st.items|
      && (forall i | 0 <= i < |st.items| && key(st.items[i]) == id :: out.0.items[i] == r.data)
      && (forall i | 0 <= i < |st.items| && key(st.items[i]) != id :: out.0.items[i] == st.items[i])
      && out.0.error == st.error && out.1 == Reply(Some(r.data), None)
    ensures r.Threw? ==> out == Fail(st, r.thrown, fallback)
  {
    match r
    case Returned(data) => (st.(items := Map(ReplaceWith(key, id, data), st.items)), Reply(Some(data), None))
    case Threw(t) => Fail(st, t, fallback)
  }

  /** `row => key(row) === id` */
  function HasKey<T>(key: T -> string, id: string): T -> bool {
    x => key(x) == id
  }

  /** A delete: the rows whose key is `id` leave the list, the others stay
      in order. */
  function Delete<T(==)>(key: T -> string, st: ListState<T>, id: string, r: Backend<()>, fallback: string)
    : (out: (ListState<T>, Reply<T>))
    ensures r.Returned? ==>
      && (forall i | 0 <= i < |out.0.items| :: key(out.0.items[i]) != id)
      && (forall i | 0 <= i < |st.items| && key(st.items[i]) != id :: st.items[i] in out.0.items)
      && IsSubsequence(out.0.items, st.items)
      && |out.0.items| + |Filter(HasKey(key, id), st.items)| == |st.items|
      && out.0.error == st.error && out.1 == Reply(None, None)
    ensures r.Threw? ==> out == Fail(st, r.thrown, fallback)
  {
    match r
    case Returned(_) =>
      var kept := Filter(Not(HasKey(key, id)), st.items);
      FilterIsSubsequence(Not(HasKey(key, id)), st.items);
      FilterPartition(HasKey(key, id), st.items);
      (st.(items := kept), Reply(None, None))
    case Threw(t) => Fail(st, t, fallback)
  }

  /** An update whose id matches no row leaves the list as it was. */
  lemma UpdateOfAbsentId<T>(key: T -> string, st: ListState<T>, id: string, data: T, fallback: string)
    requires forall i | 0 <= i < |st.items| :: key(st.items[i]) != id
    ensures Update(key, st, id, Returned(data), fallback).0.items == st.items
  {
  }

  /** A delete followed by the same delete removes nothing more. */
  lemma DeleteIdempotent<T>(key: T -> string, st: ListState<T>, id: string, fallback: string)
    ensures var once := Delete(key, st, id, Returned(()), fallback).0;
      Delete(key, once, id, Returned(()), fallback).0 == once
  {
    var once := Delete(key, st, id, Returned(()), fallback).0;
    FilterKeepsAll(Not(HasKey(key, id)), once.items);
  }

  /** A successful fetch puts the backend's rows in place of whatever the
      list held, so a create before it leaves no trace in the list. */
  lemma FetchForgetsLocalEdits<T>(st: ListState<T>, r: Backend<T>, rows: Option<seq<T>>, fallback: string, fallback': string)
    ensures Fetch(Create(st, r, fallback').0, Returned(rows), fallback).items == Fetch(st, Returned(rows), fallback).items
    ensures Fetch(st, Returned(rows), fallback).items == rows.GetOr([])
  {
  }

  /** A successful fetch does not clear the error: the message of an
      earlier failure is still recorded after it. */
  lemma FetchKeepsStaleError<T>(st: ListState<T>, t: Thrown, rows: Option<seq<T>>, fallback: string, fallback': string)
    ensures Fetch(Fail(st, t, fallback').0, Returned(rows), fallback).error == Some(ErrorMessage(t, fallback'))
  {
  }
}

=== FILE: database_connector.dfy ===
/** The external-system connector (src/components/contacts/DatabaseConnector.tsx):
    its configuration form, the connection test and its status, and the
    import, which is gated on a successful test and produces a mock batch
    of contacts. The waits, the webhook request and the random draws are
    not modelled: whether the request threw, and the value of each draw,
    are parameters. */
module DatabaseConnector {
  import opened Results
  import opened Strings
  import opened Seqs

  /** The connection settings, one string per form field. */
  datatype Config = Config(
    platform: string,
    apiKey: string,
    endpoint: string,
    username: string,
    password: string,
    customQuery: string,
    webhookUrl: string)

  const EmptyConfig := Config("", "", "", "", "", "", "")

  datatype Field = Platform | ApiKey | Endpoint | Username | Password | CustomQuery | WebhookUrl

  function Get(c: Config, f: Field): string {
    match f
    case Platform => c.platform
    case ApiKey => c.apiKey
    case Endpoint => c.endpoint
    case Username => c.username
    case Password => c.password
    case CustomQuery => c.customQuery
    case WebhookUrl => c.webhookUrl
  }

  /** `handleConfigChange`: the named field takes the value and every other
      field keeps its own. */
  function SetField(c: Config, f: Field, value: string): (c': Config)
    ensures Get(c', f) == value
    ensures forall g: Field | g != f :: Get(c', g) == Get(c, g)
  {
    match f
    case Platform => c.(platform := value)
    case ApiKey => c.(apiKey := value)
    case Endpoint => c.(endpoint := value)
    case Username => c.(username := value)
    case Password => c.(password := value)
    case CustomQuery => c.(customQuery := value)
    case WebhookUrl => c.(webhookUrl := value)
  }

  /** Setting a field to the value it already has changes nothing. */
  lemma SetFieldToSame(c: Config, f: Field)
    ensures SetField(c, f, Get(c, f)) == c
  {
  }

  datatype Status = Idle | Success | Error

  /** The connector's state. */
  datatype Connector = Connector(config: Config, testing: bool, status: Status, importing: bool)

  /** The state while a test runs: testing, with the status reset to idle.
      Without a platform no test starts. */
  function TestStarted(s: Connector): (s': Connector)
    ensures s.config.platform == "" ==> s' == s
    ensures s.config.platform != "" ==>
      s'.testing && s'.status == Idle && s'.config == s.config && s'.importing == s.importing
  {
    if s.config.platform == "" then s else s.(testing := true, status := Idle)
  }

  /** `testConnection`: without a platform nothing changes; otherwise the
      test ends with testing off and the status at success, unless the
      platform is Zapier with a webhook URL and the request threw, which is
      the only way to reach error. */
  function TestConnection(s: Connector, requestThrows: bool): (s': Connector)
    ensures s.config.platform == "" ==> s' == s
    ensures s.config.platform != "" ==> !s'.testing && s'.config == s.config && s'.importing == s.importing
    ensures s.config.platform != "" ==> s'.status != Idle
    ensures s'.status == Error && s.config.platform != "" <==>
      s.config.platform == "zapier" && s.config.webhookUrl != "" && requestThrows
  {
    if s.config.platform == "" then s
    else
      var started := TestStarted(s);
      var outcome :=
        if s.config.platform == "zapier" && s.config.webhookUrl != "" then
          (if requestThrows then Error else Success)
        else if s.config.platform == "api" && s.config.endpoint != "" then Success
        else Success;
      started.(testing := false, status := outcome)
  }

  /** The import button is enabled exactly when the last test succeeded and
      no import is running. */
  function ImportEnabled(s: Connector): (b: bool)
    ensures b ==> s.status == Success
    ensures b <==> s.status == Success && !s.importing
  {
    !(s.status != Success || s.importing)
  }

  /** A contact of the mock batch, as handed to the parent. */
  datatype MockContact = MockContact(name: string, email: string, phone: string, tags: seq<string>)

  /** The mock contact at zero-based position `i`, with `draw` the value of
      `Math.floor(Math.random() * 9000)` for its phone number. */
  function MockAt(platform: string, i: nat, draw: nat): (c: MockContact)
    requires draw < 9000
    ensures c.name == "Contact " + NatToString(i + 1)
    ensures c.email == "contact" + NatToString(i + 1) + "@" + platform + ".com"
    ensures c.tags == [platform, "imported"]
    ensures |c.phone| == 11 && c.phone[..7] == "+1-555-"
    ensures AllDigits(c.phone[7..]) && 1000 <= DigitsValue(c.phone[7..]) <= 9999
    ensures DigitsValue(c.phone[7..]) == draw + 1000
  {
    var suffix := NatToString(draw + 1000);
    FourDigits(draw + 1000);
    NatToStringRoundTrip(draw + 1000);
    var phone := "+1-555-" + suffix;
    assert phone[7..] == suffix;
    MockContact(
      "Contact " + NatToString(i + 1),
      "contact" + NatToString(i + 1) + "@" + platform + ".com",
      phone,
      [platform, "imported"])
  }

  /** The mock batch: `sizeDraw` is `Math.floor(Math.random() * 50)` and
      `phoneDraws` holds one phone draw per contact. */
  function MockBatch(platform: string, sizeDraw: nat, phoneDraws: seq<nat>): (batch: seq<MockContact>)
    requires sizeDraw < 50
    requires |phoneDraws| == sizeDraw + 10
    requires forall k | 0 <= k < |phoneDraws| :: phoneDraws[k] < 9000
    ensures 10 <= |batch| <= 59 && |batch| == |phoneDraws|
    ensures forall i | 0 <= i < |batch| :: batch[i] == MockAt(platform, i, phoneDraws[i])
  {
    seq(sizeDraw + 10, i requires 0 <= i < sizeDraw + 10 => MockAt(platform, i, phoneDraws[i]))
  }

  /** The names of a mock batch are pairwise distinct. */
  lemma MockNamesDistinct(platform: string, sizeDraw: nat, phoneDraws: seq<nat>, i: nat, j: nat)
    requires sizeDraw < 50
    requires |phoneDraws| == sizeDraw + 10
    requires forall k | 0 <= k < |phoneDraws| :: phoneDraws[k] < 9000
    requires i < j < sizeDraw + 10
    ensures MockBatch(platform, sizeDraw, phoneDraws)[i].name != MockBatch(platform, sizeDraw, phoneDraws)[j].name
  {
    var batch := MockBatch(platform, sizeDraw, phoneDraws);
    var prefix := "Contact ";
    if batch[i].name == batch[j].name {
      assert (prefix + NatToString(i + 1))[|prefix|..] == NatToString(i + 1);
      assert (prefix + NatToString(j + 1))[|prefix|..] == NatToString(j + 1);
      NatToStringInjective(i + 1, j + 1);
    }
  }

  /** `importContacts`: refused, with nothing emitted, unless the last test
      succeeded; otherwise the mock batch is emitted. Importing is off
      afterwards either way. */
  function ImportContacts(s: Connector, sizeDraw: nat, phoneDraws: seq<nat>): (out: (Connector, Option<seq<MockContact>>))
    requires sizeDraw < 50
    requires |phoneDraws| == sizeDraw + 10
    requires forall k | 0 <= k < |phoneDraws| :: phoneDraws[k] < 9000
    ensures out.1.Some? <==> s.status == Success
    ensures out.1.Some? ==> out.1.value == MockBatch(s.config.platform, sizeDraw, phoneDraws)
    ensures out.1.None? ==> out.0 == s
    ensures out.1.Some? ==> !out.0.importing && out.0.status == Success && out.0.config == s.config
  {
    if s.status != Success then (s, None)
    else (s.(importing := false), Some(MockBatch(s.config.platform, sizeDraw, phoneDraws)))
  }

  /** A test followed by an import: with a platform chosen, the batch is
      emitted exactly when the test did not end in error, and it is the
      batch of that platform; without one the test changes nothing and the
      import depends on the status the connector already had. */
  lemma TestThenImport(s: Connector, requestThrows: bool, sizeDraw: nat, phoneDraws: seq<nat>)
    requires sizeDraw < 50
    requires |phoneDraws| == sizeDraw + 10
    requires forall k | 0 <= k < |phoneDraws| :: phoneDraws[k] < 9000
    ensures var out := ImportContacts(TestConnection(s, requestThrows), sizeDraw, phoneDraws);
      && (s.config.platform != "" ==>
            (out.1.Some? <==> !(s.config.platform == "zapier" && s.config.webhookUrl != "" && requestThrows)))
      && (s.config.platform == "" ==> (out.1.Some? <==> s.status == Success))
      && (out.1.Some? ==> out.1.value == MockBatch(s.config.platform, sizeDraw, phoneDraws))
  {
  }

  /** A change of configuration leaves the status alone: after a successful
      test, choosing another platform keeps the import enabled, and the
      import then names the new platform without a test of it. */
  lemma ConfigChangeKeepsImport(s: Connector, value: string, sizeDraw: nat, phoneDraws: seq<nat>)
    requires sizeDraw < 50
    requires |phoneDraws| == sizeDraw + 10
    requires forall k | 0 <= k < |phoneDraws| :: phoneDraws[k] < 9000
    requires ImportEnabled(s)
    ensures var s' := s.(config := SetField(s.config, Platform, value));
      && ImportEnabled(s')
      && ImportContacts(s', sizeDraw, phoneDraws).1 == Some(MockBatch(value, sizeDraw, phoneDraws))
  {
  }
}

=== FILE: file_upload.dfy ===
/** Contact import from a spreadsheet file (src/components/contacts/FileUpload.tsx):
    the validator that turns one loosely typed row into a parsed contact, the
    file-type gate, the choice between the CSV and the spreadsheet parser,
    the outcome of a parse, and the hand-over of the valid contacts.

    The parsers themselves (Papa Parse, SheetJS and the browser's FileReader)
    are not modelled: each reaches this module as the rows it produced or the
    failure it reported. */
module FileUpload {
  import opened Results
  import opened Strings
  import opened Seqs

  /** A loosely typed JavaScript value as it may sit in a parsed row.
      Arrays are arrays of strings. */
  datatype JsValue =
    | Undefined
    | Null
    | Bool(b: bool)
    | Num(n: int)
    | Str(s: string)
    | Arr(items: seq<string>)

  /** JavaScript truthiness. */
  predicate Truthy(v: JsValue) {
    match v
    case Undefined => false
    case Null => false
    case Bool(b) => b
    case Num(n) => n != 0
    case Str(s) => s != ""
    case Arr(_) => true
  }

  /** One row as a parser hands it over: the `name` and `tags` columns may
      hold any value; `email` and `phone` are strings when present. */
  datatype RawRow = RawRow(name: JsValue, email: Option<string>, phone: Option<string>, tags: JsValue)

  /** The validator's verdict on one row. */
  datatype ParsedContact = ParsedContact(
    name: string,
    email: Option<string>,
    phone: Option<string>,
    tags: seq<string>,
    valid: bool,
    errors: seq<string>)

  const NameRequired := "Name is required"
  const InvalidEmailFormat := "Invalid email format"

  /** A run of the regular-expression class `[^\s@]`. */
  predicate PlainPart(t: string) {
    forall k | 0 <= k < |t| :: !IsSpace(t[k]) && t[k] != '@'
  }

  /** The email regular expression `^[^\s@]+@[^\s@]+\.[^\s@]+$`: a non-empty
      plain run, `@`, a non-empty plain run, `.`, a non-empty plain run. */
  predicate MatchesEmailPattern(s: string)
    ensures MatchesEmailPattern(s) ==> 5 <= |s|
  {
    exists i, j | 0 < i < |s| && i + 1 < j < |s| - 1 ::
      && s[i] == '@' && s[j] == '.'
      && PlainPart(s[..i]) && PlainPart(s[i + 1..j]) && PlainPart(s[j + 1..])
  }

  /** What the pattern accepts, said directly: no white space, exactly one
      `@` and not in front, and after it a `.` that is neither right after
      the `@` nor the last character. */
  ghost predicate EmailShape(s: string) {
    && NoSpace(s)
    && exists i | 0 < i < |s| ::
      && s[i] == '@'
      && (forall k | 0 <= k < |s| && k != i :: s[k] != '@')
      && (exists j | i + 1 < j < |s| - 1 :: s[j] == '.')
  }

  /** The pattern accepts exactly the strings of that shape. */
  lemma EmailPatternMeaning(s: string)
    ensures MatchesEmailPattern(s) <==> EmailShape(s)
  {
    if MatchesEmailPattern(s) {
      var i, j :| 0 < i < |s| && i + 1 < j < |s| - 1
        && s[i] == '@' && s[j] == '.'
        && PlainPart(s[..i]) && PlainPart(s[i + 1..j]) && PlainPart(s[j + 1..]);
      PatternGivesShape(s, i, j);
    }
    if EmailShape(s) {
      var i :| 0 < i < |s| && s[i] == '@'
        && (forall k | 0 <= k < |s| && k != i :: s[k] != '@')
        && (exists j | i + 1 < j < |s| - 1 :: s[j] == '.');
      var j :| i + 1 < j < |s| - 1 && s[j] == '.';
      ShapeGivesPattern(s, i, j);
    }
  }

  /** A match split at its `@` and its dot has the email shape. */
  lemma PatternGivesShape(s: string, i: int, j: int)
    requires 0 < i < |s| && i + 1 < j < |s| - 1 && s[i] == '@' && s[j] == '.'
    requires PlainPart(s[..i]) && PlainPart(s[i + 1..j]) && PlainPart(s[j + 1..])
    ensures EmailShape(s)
  {
    forall k | 0 <= k < |s|
      ensures !IsSpace(s[k]) && (k != i ==> s[k] != '@')
    {
      if k < i {
        assert s[k] == s[..i][k];
      } else if i < k < j {
        assert s[k] == s[i + 1..j][k - i - 1];
      } else if j < k {
        assert s[k] == s[j + 1..][k - j - 1];
      }
    }
  }

  /** A string of the email shape, split at its `@` and a dot after it,
      matches the pattern. */
  lemma ShapeGivesPattern(s: string, i: int, j: int)
    requires NoSpace(s) && 0 < i < |s| && s[i] == '@'
    requires forall k | 0 <= k < |s| && k != i :: s[k] != '@'
    requires i + 1 < j < |s| - 1 && s[j] == '.'
    ensures MatchesEmailPattern(s)
  {
    assert PlainPart(s[..i]);
    assert PlainPart(s[i + 1..j]);
    assert PlainPart(s[j + 1..]);
  }

  /** The name check of the validator: a string that is not only white space. */
  predicate HasName(v: JsValue) {
    v.Str? && !AllSpace(v.s)
  }

  /** An optional field counts as given when it is a string that is not
      only white space. */
  predicate Given(o: Option<string>) {
    o.Some? && !AllSpace(o.value)
  }

  predicate IsNonEmpty(t: string) {
    t != ""
  }

  /** The `tags` column normalised: a string is split at commas, each piece
      trimmed and the empty pieces dropped; an array keeps its non-empty
      entries, untrimmed; anything else gives no tags. */
  function NormalizeTags(v: JsValue): (r: seq<string>)
    ensures forall k | 0 <= k < |r| :: r[k] != ""
    ensures v.Str? ==> forall k | 0 <= k < |r| :: IsTrimmed(r[k]) && ',' !in r[k]
    ensures v.Arr? ==> IsSubsequence(r, v.items)
    ensures v.Arr? ==> forall k | 0 <= k < |v.items| :: v.items[k] != "" ==> v.items[k] in r
    ensures v.Str? ==> r == Filter(IsNonEmpty, Map(Trim, Split(v.s, ',')))
    ensures v.Arr? ==> r == Filter(IsNonEmpty, v.items)
    ensures !v.Str? && !v.Arr? ==> r == []
  {
    if !Truthy(v) then
      NoTagsFromEmpty();
      []
    else if v.Str? then StringTags(v.s)
    else if v.Arr? then ArrayTags(v.items)
    else []
  }

  /** A tag string's tags: its comma-separated pieces, trimmed, without the
      empty ones. */
  function StringTags(s: string): (r: seq<string>)
    ensures forall k | 0 <= k < |r| :: r[k] != "" && IsTrimmed(r[k]) && ',' !in r[k]
  {
    var r := Filter(IsNonEmpty, Map(Trim, Split(s, ',')));
    StringTagsClean(s, r);
    r
  }

  /** A tag array's tags: its non-empty entries, in order. */
  function ArrayTags(items: seq<string>): (r: seq<string>)
    ensures forall k | 0 <= k < |r| :: r[k] != ""
    ensures IsSubsequence(r, items)
    ensures forall k | 0 <= k < |items| :: items[k] != "" ==> items[k] in r
    ensures |r| + |Filter(Not(IsNonEmpty), items)| == |items|
  {
    FilterIsSubsequence(IsNonEmpty, items);
    FilterPartition(IsNonEmpty, items);
    Filter(IsNonEmpty, items)
  }

  /** The empty tag string, which is falsy, gives no tags either way. */
  lemma NoTagsFromEmpty()
    ensures Filter(IsNonEmpty, Map(Trim, Split("", ','))) == []
  {
    assert Split("", ',') == [""];
    assert Trim("") == "";
  }

  /** The tags of a string are trimmed and free of commas. */
  lemma StringTagsClean(s: string, r: seq<string>)
    requires r == Filter(IsNonEmpty, Map(Trim, Split(s, ',')))
    ensures forall k | 0 <= k < |r| :: r[k] != "" && IsTrimmed(r[k]) && ',' !in r[k]
  {
    var pieces := Map(Trim, Split(s, ','));
    forall k | 0 <= k < |pieces|
      ensures ',' !in pieces[k]
    {
      TrimKeepsOut(Split(s, ',')[k], ',');
    }
  }

  /** The name check of `validateContact`: the trimmed name, or nothing
      when the value is missing, not a string, or only white space. */
  function CheckName(v: JsValue): (r: Option<string>)
    ensures r.Some? <==> HasName(v)
    ensures r.Some? ==> r.value == Trim(v.s) && r.value != ""
  {
    if !Truthy(v) || !v.Str? || |Trim(v.s)| == 0 then None else Some(Trim(v.s))
  }

  datatype EmailVerdict = NoEmail | Accepted(email: string) | Rejected

  /** The email check of `validateContact`: a missing or blank email is no
      email and no error; a given one is kept trimmed when its trim matches
      the pattern, and rejected otherwise. */
  function CheckEmail(o: Option<string>): (r: EmailVerdict)
    ensures r.NoEmail? <==> !Given(o)
    ensures r.Accepted? <==> Given(o) && EmailShape(Trim(o.value))
    ensures r.Accepted? ==> r.email == Trim(o.value)
  {
    if o.Some? && o.value != "" && Trim(o.value) != "" then
      EmailPatternMeaning(Trim(o.value));
      if MatchesEmailPattern(Trim(o.value)) then Accepted(Trim(o.value)) else Rejected
    else NoEmail
  }

  /** The phone check of `validateContact`: never an error; a given phone is
      kept trimmed. */
  function CheckPhone(o: Option<string>): (r: Option<string>)
    ensures r.Some? <==> Given(o)
    ensures r.Some? ==> r.value == Trim(o.value) && r.value != ""
  {
    if o.Some? && o.value != "" && Trim(o.value) != "" then Some(Trim(o.value)) else None
  }

  /** The validator's error list: the name's message, then the email's. */
  function Errors(noName: bool, badEmail: bool): (errs: seq<string>)
    ensures errs == [] <==> !noName && !badEmail
    ensures NameRequired in errs <==> noName
    ensures InvalidEmailFormat in errs <==> badEmail
    ensures |errs| <= 2 && (|errs| == 2 ==> errs == [NameRequired, InvalidEmailFormat])
  {
    assert NameRequired[0] != InvalidEmailFormat[0];
    (if noName then [NameRequired] else []) + (if badEmail then [InvalidEmailFormat] else [])
  }

  /** `validateContact`: the row's trimmed name, its email when given and
      well formed, its phone when given, its normalised tags, and the list
      of what is wrong with it, the name's problem first. */
  function ValidateContact(row: RawRow): (p: ParsedContact)
    ensures p.valid <==> p.errors == []
    ensures p.valid <==> HasName(row.name) && (Given(row.email) ==> EmailShape(Trim(row.email.value)))
    ensures NameRequired in p.errors <==> !HasName(row.name)
    ensures InvalidEmailFormat in p.errors <==> Given(row.email) && !EmailShape(Trim(row.email.value))
    ensures |p.errors| <= 2 && (|p.errors| == 2 ==> p.errors == [NameRequired, InvalidEmailFormat])
    ensures HasName(row.name) ==> p.name == Trim(row.name.s) && p.name != ""
    ensures !HasName(row.name) ==> p.name == ""
    ensures p.email.Some? <==> Given(row.email) && EmailShape(Trim(row.email.value))
    ensures p.email.Some? ==> p.email.value == Trim(row.email.value)
    ensures p.phone.Some? <==> Given(row.phone)
    ensures p.phone.Some? ==> p.phone.value == Trim(row.phone.value) && p.phone.value != ""
    ensures p.tags == NormalizeTags(row.tags)
  {
    var name := CheckName(row.name);
    var email := CheckEmail(row.email);
    var errors := Errors(name.None?, email.Rejected?);
    ParsedContact(
      name.GetOr(""),
      if email.Accepted? then Some(email.email) else None,
      CheckPhone(row.phone),
      NormalizeTags(row.tags),
      errors == [],
      errors)
  }

  /** A tag list written as one comma-separated string, with any white space
      after each comma, normalises back to the same list when every tag is
      non-empty, trimmed and free of commas. */
  lemma TagStringRoundTrip(tags: seq<string>, pad: string)
    requires forall k | 0 <= k < |tags| :: tags[k] != "" && IsTrimmed(tags[k]) && ',' !in tags[k]
    requires AllSpace(pad) && ',' !in pad
    ensures NormalizeTags(Str(Join(tags, [','] + pad))) == tags
  {
    if |tags| > 0 {
      var j := Join(tags, [','] + pad);
      assert |j| >= |tags[0]|;
      TrimmedPieces(tags, pad);
      FilterKeepsAll(IsNonEmpty, tags);
      assert NormalizeTags(Str(j)) == Filter(IsNonEmpty, Map(Trim, Split(j, ',')));
    }
  }

  /** Trimming the pieces of the joined string gives the tags back. */
  lemma TrimmedPieces(tags: seq<string>, pad: string)
    requires |tags| > 0
    requires forall k | 0 <= k < |tags| :: IsTrimmed(tags[k]) && ',' !in tags[k]
    requires AllSpace(pad) && ',' !in pad
    ensures Map(Trim, Split(Join(tags, [','] + pad), ',')) == tags
  {
    SplitJoin(tags, ',', pad);
    PaddedPiecesTrim(Split(Join(tags, [','] + pad), ','), tags, pad);
  }

  /** Pieces that are the tags, each but the first behind the same white
      space, trim back to the tags. */
  lemma PaddedPiecesTrim(pieces: seq<string>, tags: seq<string>, pad: string)
    requires |pieces| == |tags| > 0 && pieces[0] == tags[0]
    requires forall k | 1 <= k < |tags| :: pieces[k] == pad + tags[k]
    requires forall k | 0 <= k < |tags| :: IsTrimmed(tags[k])
    requires AllSpace(pad)
    ensures Map(Trim, pieces) == tags
  {
    PaddedPiecesTrimEach(pieces, tags, pad);
    MapPointwise(Trim, pieces, tags);
  }

  /** The same, piece by piece. */
  lemma PaddedPiecesTrimEach(pieces: seq<string>, tags: seq<string>, pad: string)
    requires |pieces| == |tags| > 0 && pieces[0] == tags[0]
    requires forall k | 1 <= k < |tags| :: pieces[k] == pad + tags[k]
    requires forall k | 0 <= k < |tags| :: IsTrimmed(tags[k])
    requires AllSpace(pad)
    ensures forall k | 0 <= k < |tags| :: Trim(pieces[k]) == tags[k]
  {
    forall k | 0 <= k < |tags|
      ensures Trim(pieces[k]) == tags[k]
    {
      if k == 0 {
        TrimOfTrimmed(tags[0]);
      } else {
        PaddedPieceTrim(pieces[k], tags[k], pad);
      }
    }
  }

  /** One piece: a trimmed tag behind white space trims back to the tag. */
  lemma PaddedPieceTrim(piece: string, tag: string, pad: string)
    requires piece == pad + tag && IsTrimmed(tag) && AllSpace(pad)
    ensures Trim(piece) == tag
  {
    TrimAfterSpaces(pad, tag);
    TrimOfTrimmed(tag);
  }

  // ---------------------------------------------------------------------
  // Choosing and parsing a file

  const CsvType := "text/csv"
  const XlsType := "application/vnd.ms-excel"
  const XlsxType := "application/vnd.openxmlformats-officedocument.spreadsheetml.sheet"

  /** The MIME types the file picker lets through. */
  const AllowedTypes := [CsvType, XlsType, XlsxType]

  /** The file the user picked, by name and MIME type. */
  datatype FileInfo = FileInfo(name: string, mime: string)

  /** The component's state: the chosen file, whether a parse is running,
      the parsed contacts, and the progress bar. */
  datatype Upload = Upload(file: Option<FileInfo>, parsing: bool, parsed: seq<ParsedContact>, progress: nat)

  /** `handleFileSelect`: a pick of an accepted type replaces the file and
      clears earlier results; no pick, or a pick of any other type, changes
      nothing. */
  function SelectFile(st: Upload, picked: Option<FileInfo>): (st': Upload)
    ensures picked.Some? && picked.value.mime in AllowedTypes ==>
      st' == st.(file := picked, parsed := [])
    ensures picked.None? || picked.value.mime !in AllowedTypes ==> st' == st
    ensures st'.file.Some? && st'.file != st.file ==>
      st'.file.value.mime in {CsvType, XlsType, XlsxType}
  {
    if picked.None? then st
    else if picked.value.mime !in AllowedTypes then st
    else st.(file := picked, parsed := [])
  }

  /** The Remove button: the file, the parsed contacts and the progress bar
      are dropped; a parse already running keeps its flag. */
  function RemoveFile(st: Upload): (st': Upload)
    ensures st'.file.None? && st'.parsed == [] && st'.progress == 0
    ensures st'.parsing == st.parsing
  {
    st.(file := None, parsed := [], progress := 0)
  }

  /** After Remove, when no parse is in flight, there is nothing to parse or
      import: parsing does nothing, an import offers no rows, and removing
      again changes nothing. A parse that was already awaiting its parser
      when Remove was clicked is not covered (handlers run as one step). */
  lemma RemoveLeavesNothing(st: Upload, csv: CsvOutcome, sheet: SheetOutcome)
    ensures ParseFile(RemoveFile(st), csv, sheet) == (RemoveFile(st), None)
    ensures HandleImport(RemoveFile(st).parsed).None?
    ensures RemoveFile(RemoveFile(st)) == RemoveFile(st)
  {
  }

  /** Removing forgets the old file: a new pick of an accepted type starts
      from no parsed contacts, as a pick over the old file would. */
  lemma RemoveThenSelect(st: Upload, picked: FileInfo)
    requires picked.mime in AllowedTypes
    ensures SelectFile(RemoveFile(st), Some(picked)).file == SelectFile(st, Some(picked)).file
    ensures SelectFile(RemoveFile(st), Some(picked)).parsed == SelectFile(st, Some(picked)).parsed == []
  {
  }

  datatype Parser = CsvParser | SpreadsheetParser

  /** The dispatch in `handleParseFile`: CSV files go to the CSV parser and
      every other file to the spreadsheet parser. */
  function ParserFor(mime: string): (p: Parser)
    ensures p == CsvParser <==> mime == CsvType
  {
    if mime == CsvType then CsvParser else SpreadsheetParser
  }

  /** A file the picker accepted reaches exactly one parser: the CSV parser
      for a CSV file and the spreadsheet parser for either Excel type. */
  lemma AcceptedFileParser(st: Upload, picked: Option<FileInfo>)
    ensures var st' := SelectFile(st, picked);
      st'.file != st.file ==>
        && (ParserFor(st'.file.value.mime) == CsvParser <==> st'.file.value.mime == CsvType)
        && (ParserFor(st'.file.value.mime) == SpreadsheetParser <==> st'.file.value.mime in {XlsType, XlsxType})
  {
  }

  /** What Papa Parse reports: its completion callback, with the rows and the
      list of row errors, or its error callback. */
  datatype CsvOutcome = CsvComplete(rows: seq<RawRow>, errors: seq<string>) | CsvFailed(message: string)

  /** What reading the file and SheetJS produce: the rows of the first
      sheet, an exception (an `Error` with its message, or `None` for any
      other thrown value), or a failed read. */
  datatype SheetOutcome = SheetRows(rows: seq<RawRow>) | SheetThrew(error: Option<string>) | ReadFailed

  /** `parseCSV`: any error Papa Parse reports rejects the whole file;
      otherwise every row is validated, in order. */
  function ParseCsv(o: CsvOutcome): (r: Result<seq<ParsedContact>>)
    ensures r.Ok? <==> o.CsvComplete? && o.errors == []
    ensures r.Ok? ==>
      && |r.value| == |o.rows|
      && forall k | 0 <= k < |o.rows| :: r.value[k] == ValidateContact(o.rows[k])
    ensures o.CsvComplete? && o.errors != [] ==> r == Err("CSV parsing error: " + o.errors[0])
    ensures o.CsvFailed? ==> r == Err("Failed to parse CSV: " + o.message)
  {
    match o
    case CsvComplete(rows, errors) =>
      if |errors| > 0 then Err("CSV parsing error: " + errors[0])
      else Ok(Map(ValidateContact, rows))
    case CsvFailed(message) => Err("Failed to parse CSV: " + message)
  }

  /** `parseExcel`: the first sheet's rows, each validated, or the failure. */
  function ParseSheet(o: SheetOutcome): (r: Result<seq<ParsedContact>>)
    ensures r.Ok? <==> o.SheetRows?
    ensures r.Ok? ==>
      && |r.value| == |o.rows|
      && forall k | 0 <= k < |o.rows| :: r.value[k] == ValidateContact(o.rows[k])
    ensures o.SheetThrew? ==>
      r == Err("Failed to parse Excel file: " + o.error.GetOr("Unknown error"))
    ensures o.ReadFailed? ==> r == Err("Failed to read file")
  {
    match o
    case SheetRows(rows) => Ok(Map(ValidateContact, rows))
    case SheetThrew(error) => Err("Failed to parse Excel file: " + error.GetOr("Unknown error"))
    case ReadFailed => Err("Failed to read file")
  }

  predicate IsValid(p: ParsedContact) {
    p.valid
  }

  /** How many contacts passed validation. */
  function ValidCount(ps: seq<ParsedContact>): nat {
    |Filter(IsValid, ps)|
  }

  /** The summary shown after a parse: counts, or the failure message. */
  datatype Report = Parsed(total: nat, valid: nat, invalid: nat) | Failed(message: string)

  /** `handleParseFile`: with no file, nothing happens; otherwise the file's
      parser runs and either its contacts replace the parsed list, with a
      report that counts them, or the failure is reported and the list is
      kept. Parsing has stopped either way. */
  function ParseFile(st: Upload, csv: CsvOutcome, sheet: SheetOutcome): (out: (Upload, Option<Report>))
    ensures st.file.None? ==> out == (st, None)
    ensures st.file.Some? ==> !out.0.parsing && out.1.Some? && out.0.file == st.file
    ensures st.file.Some? && st.file.value.mime == CsvType && !(csv.CsvComplete? && csv.errors == []) ==>
      out.0.parsed == st.parsed && out.1.value.Failed?
    ensures st.file.Some? && st.file.value.mime != CsvType && !sheet.SheetRows? ==>
      out.0.parsed == st.parsed && out.1.value.Failed?
    ensures st.file.Some? && st.file.value.mime == CsvType && csv.CsvComplete? && csv.errors == [] ==>
      out.0.parsed == Map(ValidateContact, csv.rows) && out.1.value.Parsed?
    ensures st.file.Some? && st.file.value.mime != CsvType && sheet.SheetRows? ==>
      out.0.parsed == Map(ValidateContact, sheet.rows) && out.1.value.Parsed?
    ensures out.1.Some? && out.1.value.Parsed? ==>
      && out.0.progress == 100
      && out.1.value.total == |out.0.parsed|
      && out.1.value.valid + out.1.value.invalid == out.1.value.total
      && out.1.value.invalid == |Filter(Not(IsValid), out.0.parsed)|
  {
    if st.file.None? then (st, None)
    else
      var result :=
        match ParserFor(st.file.value.mime)
        case CsvParser => ParseCsv(csv)
        case SpreadsheetParser => ParseSheet(sheet);
      match result
      case Ok(contacts) =>
        var valid := ValidCount(contacts);
        FilterPartition(IsValid, contacts);
        (st.(parsing := false, parsed := contacts, progress := 100),
         Some(Parsed(|contacts|, valid, |contacts| - valid)))
      case Err(message) =>
        (st.(parsing := false, progress := 30), Some(Failed(message)))
  }

  // ---------------------------------------------------------------------
  // Importing

  /** The row handed to the contacts table (its `user_id` is left to the
      database's row-level security and not modelled). */
  datatype ContactInsert = ContactInsert(name: string, email: Option<string>, phone: Option<string>, tags: seq<string>)

  /** `value || null` on an optional string. */
  function NullIfEmpty(o: Option<string>): (r: Option<string>)
    ensures r.Some? <==> o.Some? && o.value != ""
    ensures r.Some? ==> r == o
  {
    if o.Some? then OrNull(o.value) else None
  }

  /** The row `handleImport` builds from a parsed contact: name and tags as
      parsed, and an empty email or phone sent as null. */
  function ToInsert(p: ParsedContact): (r: ContactInsert)
    ensures r.name == p.name && r.tags == p.tags
    ensures r.email.Some? <==> p.email.Some? && p.email.value != ""
    ensures r.email.Some? ==> r.email == p.email
    ensures r.phone.Some? <==> p.phone.Some? && p.phone.value != ""
    ensures r.phone.Some? ==> r.phone == p.phone
  {
    ContactInsert(p.name, NullIfEmpty(p.email), NullIfEmpty(p.phone), p.tags)
  }

  /** The valid contacts, in order, as table rows. */
  function ValidInserts(ps: seq<ParsedContact>): seq<ContactInsert> {
    Map(ToInsert, Filter(IsValid, ps))
  }

  /** `handleImport`: nothing when no contact is valid; otherwise exactly one
      row per valid contact, carrying that contact's fields. */
  function HandleImport(ps: seq<ParsedContact>): (r: Option<seq<ContactInsert>>)
    ensures r.None? <==> forall k | 0 <= k < |ps| :: !ps[k].valid
    ensures r.Some? ==> |r.value| == ValidCount(ps)
    ensures r.Some? ==> r.value == ValidInserts(ps)
    ensures r.Some? ==> forall k | 0 <= k < |ps| && ps[k].valid :: ToInsert(ps[k]) in r.value
    ensures r.Some? ==> forall x | x in r.value :: exists k | 0 <= k < |ps| :: ps[k].valid && ToInsert(ps[k]) == x
  {
    var valid := Filter(IsValid, ps);
    var rows := Map(ToInsert, valid);
    assert forall k | 0 <= k < |ps| && ps[k].valid :: ps[k] in valid;
    if |rows| == 0 then None else Some(rows)
  }

  /** The import keeps the order of the file: the rows of a concatenation are
      the rows of each part, one after the other. */
  lemma ImportKeepsOrder(a: seq<ParsedContact>, b: seq<ParsedContact>)
    ensures ValidInserts(a + b) == ValidInserts(a) + ValidInserts(b)
  {
    FilterConcat(IsValid, a, b);
    MapConcat(ToInsert, Filter(IsValid, a), Filter(IsValid, b));
  }

  /** A table row with a trimmed, non-empty name, an email of the accepted
      shape or none, a trimmed, non-empty phone or none, and no empty tag. */
  ghost predicate WellFormedInsert(x: ContactInsert) {
    && x.name != "" && IsTrimmed(x.name)
    && (x.email.Some? ==> EmailShape(x.email.value))
    && (x.phone.Some? ==> x.phone.value != "" && IsTrimmed(x.phone.value))
    && (forall k | 0 <= k < |x.tags| :: x.tags[k] != "")
  }

  /** A row that passes validation becomes a well-formed table row. */
  lemma ValidRowWellFormed(row: RawRow)
    ensures ValidateContact(row).valid ==> WellFormedInsert(ToInsert(ValidateContact(row)))
  {
  }

  /** Each imported row comes from a valid contact. */
  lemma ImportedRowSource(ps: seq<ParsedContact>, x: ContactInsert)
    requires x in ValidInserts(ps)
    ensures exists k | 0 <= k < |ps| :: ps[k].valid && ToInsert(ps[k]) == x
  {
    var valid := Filter(IsValid, ps);
    var i :| 0 <= i < |valid| && x == ToInsert(valid[i]);
    assert valid[i] in ps;
  }

  /** Every row imported from validated rows is well formed. */
  lemma ImportedRowsWellFormed(rows: seq<RawRow>)
    ensures forall x | x in ValidInserts(Map(ValidateContact, rows)) :: WellFormedInsert(x)
  {
    var ps := Map(ValidateContact, rows);
    forall x | x in ValidInserts(ps)
      ensures WellFormedInsert(x)
    {
      ImportedRowSource(ps, x);
      var k :| 0 <= k < |ps| && ps[k].valid && ToInsert(ps[k]) == x;
      ValidRowWellFormed(rows[k]);
    }
  }
}

=== FILE: manage_contacts.dfy ===
/** The contacts page (src/pages/ManageContacts.tsx): the search filter, the
    form that creates or edits a contact, and the pre-filling of that form
    from an existing contact. */
module ManageContacts {
  import opened Results
  import opened Strings
  import opened Seqs
  import opened CrudList
  import opened UseContacts
  import FileUpload

  /** A contact matches a search term when its name or email contains the
      term, both lower-cased, or its phone contains the term as typed. */
  predicate MatchesSearch(term: string, c: Contact)
    ensures term == "" ==> MatchesSearch(term, c)
  {
    ContainsEmpty(Lower(c.name));
    || Contains(Lower(c.name), Lower(term))
    || (c.email.Some? && Contains(Lower(c.email.value), Lower(term)))
    || (c.phone.Some? && Contains(c.phone.value, term))
  }

  function Matcher(term: string): Contact -> bool {
    c => MatchesSearch(term, c)
  }

  /** `filteredContacts`: the contacts that match, in their original order. */
  function FilteredContacts(contacts: seq<Contact>, term: string): (r: seq<Contact>)
    ensures IsSubsequence(r, contacts)
    ensures forall i | 0 <= i < |r| :: MatchesSearch(term, r[i])
    ensures forall i | 0 <= i < |contacts| :: MatchesSearch(term, contacts[i]) ==> contacts[i] in r
    ensures forall c: Contact :: multiset(r)[c] == if MatchesSearch(term, c) then multiset(contacts)[c] else 0
  {
    FilterIsSubsequence(Matcher(term), contacts);
    forall c: Contact
      ensures multiset(Filter(Matcher(term), contacts))[c] == if MatchesSearch(term, c) then multiset(contacts)[c] else 0
    {
      FilterCount(Matcher(term), contacts, c);
    }
    Filter(Matcher(term), contacts)
  }

  /** An empty search keeps every contact. */
  lemma EmptySearchKeepsAll(contacts: seq<Contact>)
    ensures FilteredContacts(contacts, "") == contacts
  {
    forall i | 0 <= i < |contacts|
      ensures Matcher("")(contacts[i])
    {
      ContainsEmpty(Lower(contacts[i].name));
    }
    FilterKeepsAll(Matcher(""), contacts);
  }

  /** The form fields, as typed. */
  datatype Form = Form(name: string, email: string, phone: string, tags: string)

  const EmptyForm := Form("", "", "", "")

  /** What the form sends to the hook. */
  datatype ContactData = ContactData(name: string, email: Option<string>, phone: Option<string>, tags: seq<string>)

  /** The record built in `handleSubmit`: the name as typed, empty email and
      phone as null, and the tag string split at every comma with each piece
      trimmed and empty pieces kept. */
  function ToContactData(f: Form): (d: ContactData)
    ensures d.name == f.name
    ensures d.email.None? <==> f.email == ""
    ensures d.email.Some? ==> d.email.value == f.email
    ensures d.phone.None? <==> f.phone == ""
    ensures d.phone.Some? ==> d.phone.value == f.phone
    ensures f.tags == "" ==> d.tags == []
    ensures f.tags != "" ==> |d.tags| == CountChar(f.tags, ',') + 1
    ensures f.tags != "" ==> forall k | 0 <= k < |d.tags| :: d.tags[k] == Trim(Split(f.tags, ',')[k])
    ensures forall k | 0 <= k < |d.tags| :: IsTrimmed(d.tags[k]) && ',' !in d.tags[k]
  {
    var tags :=
      if f.tags != "" then
        var pieces := Split(f.tags, ',');
        forall k | 0 <= k < |pieces|
          ensures ',' !in Trim(pieces[k])
        {
          TrimKeepsOut(pieces[k], ',');
        }
        Map(Trim, pieces)
      else [];
    ContactData(f.name, OrNull(f.email), OrNull(f.phone), tags)
  }

  /** `handleEdit`'s pre-fill: null email and phone become empty fields and
      the tags are joined with ", ", which leaves the tag field empty only
      for no tags or the single empty tag. */
  function Prefill(c: Contact): (f: Form)
    ensures f.name == c.name
    ensures f.email == c.email.GetOr("") && f.phone == c.phone.GetOr("")
    ensures f.tags == "" <==> c.tags.None? || c.tags.value == [] || c.tags.value == [""]
    ensures c.tags.Some? ==> f.tags == Join(c.tags.value, ", ")
    ensures c.tags.Some? && |c.tags.value| > 0 && (forall k | 0 <= k < |c.tags.value| :: ',' !in c.tags.value[k]) ==>
      var pieces := Split(f.tags, ',');
      && |pieces| == |c.tags.value| && pieces[0] == c.tags.value[0]
      && forall k | 1 <= k < |pieces| :: pieces[k] == " " + c.tags.value[k]
  {
    var tags := if c.tags.Some? then Join(c.tags.value, ", ") else "";
    CommaSpacePieces(c.tags.GetOr([]));
    assert c.tags.Some? && |c.tags.value| >= 2 ==> |tags| >= 2;
    assert c.tags.Some? && |c.tags.value| == 1 ==> tags == c.tags.value[0];
    assert c.tags.Some? && |c.tags.value| == 1 ==> c.tags.value == [c.tags.value[0]];
    Form(c.name, c.email.GetOr(""), c.phone.GetOr(""), tags)
  }

  /** Splitting a list joined with ", " at its commas gives the first item
      and then each further item behind one space, when no item holds a
      comma. */
  lemma CommaSpacePieces(ts: seq<string>)
    ensures |ts| > 0 && (forall k | 0 <= k < |ts| :: ',' !in ts[k]) ==>
      var pieces := Split(Join(ts, ", "), ',');
      && |pieces| == |ts| && pieces[0] == ts[0]
      && forall k | 1 <= k < |pieces| :: pieces[k] == " " + ts[k]
  {
    if |ts| > 0 && (forall k | 0 <= k < |ts| :: ',' !in ts[k]) {
      assert ", " == [','] + " ";
      SplitJoin(ts, ',', " ");
    }
  }

  /** Editing a contact and submitting the form unchanged sends back the
      contact's own fields, provided its email and phone are not empty
      strings and its tags are trimmed, free of commas, and not the single
      empty tag. */
  lemma EditSubmitRoundTrip(c: Contact)
    requires c.email != Some("") && c.phone != Some("")
    requires c.tags.Some? ==>
      && c.tags.value != [""]
      && forall k | 0 <= k < |c.tags.value| :: IsTrimmed(c.tags.value[k]) && ',' !in c.tags.value[k]
    ensures ToContactData(Prefill(c)) == ContactData(c.name, c.email, c.phone, c.tags.GetOr([]))
  {
    var f := Prefill(c);
    if c.tags.Some? && c.tags.value != [] {
      var ts := c.tags.value;
      var pieces := Split(f.tags, ',');
      FileUpload.PaddedPiecesTrim(pieces, ts, " ");
    }
  }

  /** The page's state: the hook's contacts, the form, the contact being
      edited, and whether the dialog is open. */
  datatype Page = Page(store: ListState<Contact>, form: Form, editing: Option<Contact>, dialogOpen: bool)

  /** `handleEdit`: the form is pre-filled from the contact, which becomes
      the one being edited, and the dialog opens. */
  function Edit(p: Page, c: Contact): (p': Page)
    ensures p'.editing == Some(c) && p'.dialogOpen
    ensures p'.form == Prefill(c)
    ensures p'.form.name == c.name && p'.form.email == c.email.GetOr("") && p'.form.phone == c.phone.GetOr("")
    ensures p'.store == p.store
  {
    p.(form := Prefill(c), editing := Some(c), dialogOpen := true)
  }

  /** What `handleSubmit` sends: an update of the contact being edited, or
      a create. */
  datatype Request = CreateReq(data: ContactData) | UpdateReq(id: string, data: ContactData)

  /** The request for the page's form. */
  function RequestFor(p: Page): (req: Request)
    ensures req.data == ToContactData(p.form)
    ensures req.UpdateReq? <==> p.editing.Some?
    ensures req.UpdateReq? ==> req.id == p.editing.value.id
  {
    if p.editing.Some? then UpdateReq(p.editing.value.id, ToContactData(p.form))
    else CreateReq(ToContactData(p.form))
  }

  /** The hook's list and reply after the request. */
  function Send(p: Page, r: Backend<Contact>): (ListState<Contact>, Reply<Contact>) {
    if p.editing.Some? then UpdateContact(p.store, p.editing.value.id, r)
    else CreateContact(p.store, r)
  }

  /** `handleSubmit`, as written: the form's record goes to an update of the
      contact being edited, or to a create. When the reply reads as success
      to `!result.error` the form is emptied, nothing is being edited and
      the dialog closes; otherwise they stay as they were. An `Error` with
      an empty message reads as success, although nothing was saved. The
      hook's list changes as the hook says. */
  function Submit(p: Page, r: Backend<Contact>): (out: (Page, Request))
    ensures out.1 == RequestFor(p)
    ensures r.Returned? || r == Threw(ErrorValue("")) ==>
      out.0.form == EmptyForm && out.0.editing.None? && !out.0.dialogOpen
    ensures r.Threw? && r != Threw(ErrorValue("")) ==>
      out.0.form == p.form && out.0.editing == p.editing && out.0.dialogOpen == p.dialogOpen
    ensures r.Threw? ==> out.0.store.items == p.store.items
    ensures r.Returned? && p.editing.None? ==> out.0.store.items == [r.data] + p.store.items
    ensures r.Returned? && p.editing.Some? ==>
      && |out.0.store.items| == |p.store.items|
      && forall i | 0 <= i < |p.store.items| ::
           out.0.store.items[i] == if p.store.items[i].id == p.editing.value.id then r.data else p.store.items[i]
  {
    var (store, reply) := Send(p, r);
    if ReadsAsSuccess(reply) then
      (p.(store := store, form := EmptyForm, editing := None, dialogOpen := false), RequestFor(p))
    else
      (p.(store := store), RequestFor(p))
  }

  /** A save that throws an `Error` with an empty message closes the dialog
      and empties the form as a success would, while the list is unchanged:
      the edit is lost. */
  lemma SubmitEmptyErrorLooksSaved(p: Page)
    ensures var out := Submit(p, Threw(ErrorValue("")));
      && out.0.store.items == p.store.items
      && out.0.form == EmptyForm && out.0.editing.None? && !out.0.dialogOpen
  {
  }

  /** `handleSubmit` with the reply checked for any error: the dialog
      closes and the form is emptied exactly when the backend stored the
      row; any failure leaves the form, the contact being edited and the
      dialog as they were. */
  function SubmitChecked(p: Page, r: Backend<Contact>): (out: (Page, Request))
    ensures out.1 == RequestFor(p)
    ensures r.Returned? ==> out.0.form == EmptyForm && out.0.editing.None? && !out.0.dialogOpen
    ensures r.Threw? ==> out.0.form == p.form && out.0.editing == p.editing && out.0.dialogOpen == p.dialogOpen
    ensures out.0.store == Send(p, r).0
  {
    var (store, reply) := Send(p, r);
    if reply.error.None? then
      (p.(store := store, form := EmptyForm, editing := None, dialogOpen := false), RequestFor(p))
    else
      (p.(store := store), RequestFor(p))
  }

  /** The two submits agree on every reply but an `Error` with an empty
      message, and on that one they part whenever the dialog was open. */
  lemma SubmitCheckedAgrees(p: Page, r: Backend<Contact>)
    ensures r != Threw(ErrorValue("")) ==> Submit(p, r) == SubmitChecked(p, r)
    ensures r == Threw(ErrorValue("")) && p.dialogOpen ==> Submit(p, r).0.dialogOpen != SubmitChecked(p, r).0.dialogOpen
  {
  }

  /** Opening a contact for editing and saving the form unchanged sends an
      update of that contact carrying its own fields, under the conditions
      of `EditSubmitRoundTrip`. */
  lemma EditThenSubmit(p: Page, c: Contact, r: Backend<Contact>)
    requires c.email != Some("") && c.phone != Some("")
    requires c.tags.Some? ==>
      && c.tags.value != [""]
      && forall k | 0 <= k < |c.tags.value| :: IsTrimmed(c.tags.value[k]) && ',' !in c.tags.value[k]
    ensures SubmitChecked(Edit(p, c), r).1 == UpdateReq(c.id, ContactData(c.name, c.email, c.phone, c.tags.GetOr([])))
  {
    EditSubmitRoundTrip(c);
  }

  /** The dialog's `onOpenChange`: opening only opens it; closing it also
      empties the form and forgets the contact being edited. */
  function OpenChange(p: Page, open: bool): (p': Page)
    ensures p'.dialogOpen == open && p'.store == p.store
    ensures open ==> p'.form == p.form && p'.editing == p.editing
    ensures !open ==> p'.form == EmptyForm && p'.editing.None?
  {
    if open then p.(dialogOpen := true)
    else p.(form := EmptyForm, editing := None, dialogOpen := false)
  }

  /** Closing the dialog abandons an edit: the next save is a create of an
      empty form's record. */
  lemma CloseAbandonsEdit(p: Page, c: Contact, r: Backend<Contact>)
    ensures SubmitChecked(OpenChange(Edit(p, c), false), r).1 == CreateReq(ToContactData(EmptyForm))
  {
  }
}

=== FILE: message_composer.dfy ===
/** The per-channel message editor (src/components/campaign/MessageComposer.tsx):
    how the campaign's message is rewritten for each channel, how the map
    from channel to message follows the selected channels, and how an edit
    of one channel reaches the parent. React's effect scheduling is not
    modelled: each effect is one function from the state it reads to the
    state it writes. */
module MessageComposer {
  import opened Results
  import opened Strings
  import opened UseCampaigns

  /** One channel's version of the message; only email has a subject. */
  datatype ChannelMessage = ChannelMessage(text: string, images: seq<string>, subject: Option<string>)

  /** The characters of the message an SMS keeps. */
  const SmsLimit := 140
  const SmsCutSuffix := "... Text STOP to opt out."
  const SmsSuffix := " Text STOP to opt out."
  const OptOut := "Text STOP to opt out."

  const EmailSubject := "Important Update from Your Business"
  const EmailOpening := "Dear {FirstName},\n\n"
  const EmailClosing := "\n\nThank you for your continued support!\n\nBest regards,\n{BrandName} Team"

  /** The marks that open the WhatsApp greeting, the WhatsApp reply line
      and the RCS text, character for character as the component's source
      holds them: the UTF-8 bytes of a waving hand, a speech balloon and a
      party popper, each byte read as one Windows-1252 character. */
  const GreetingMark := "\U{00F0}\U{0178}\U{2018}\U{2039}"
  const ReplyMark := "\U{00F0}\U{0178}\U{2019}\U{00AC}"
  const RcsMark := "\U{00F0}\U{0178}\U{017D}\U{2030}"

  const WhatsAppOpening := GreetingMark + " Hi {FirstName}!\n\n"
  const WhatsAppClosing := "\n\n" + ReplyMark + " Reply to this message for instant support!"
  const RcsOpening := RcsMark + " "
  const RcsClosing := "\n\n[Learn More] [Contact Us]\n\nPowered by {BrandName}"

  /** The channels with a template of their own. */
  const TemplatedChannels := {"sms", "email", "whatsapp", "rcs"}

  function Min(a: int, b: int): int {
    if a <= b then a else b
  }

  predicate EndsWith(s: string, suffix: string) {
    |suffix| <= |s| && s[|s| - |suffix|..] == suffix
  }

  /** The SMS rewrite: the first 140 characters of the text are kept (with
      an ellipsis when more were cut) and the opt-out notice follows, so the
      result never exceeds 165 characters. */
  function SmsText(text: string): (r: string)
    ensures |r| <= SmsLimit + |SmsCutSuffix|
    ensures var kept := Min(|text|, SmsLimit); |r| >= kept && r[..kept] == text[..kept]
    ensures |text| <= SmsLimit ==> |r| == |text| + |SmsSuffix| && EndsWith(r, SmsSuffix)
    ensures |text| > SmsLimit ==> |r| == SmsLimit + |SmsCutSuffix| && EndsWith(r, SmsCutSuffix)
    ensures EndsWith(r, OptOut)
  {
    if |text| > SmsLimit then
      CutShape(text);
      text[..SmsLimit] + SmsCutSuffix
    else
      KeepShape(text);
      text + SmsSuffix
  }

  /** A long text keeps its first 140 characters, then the cut notice. */
  lemma CutShape(text: string)
    requires |text| > SmsLimit
    ensures var r := text[..SmsLimit] + SmsCutSuffix;
      |r| == SmsLimit + |SmsCutSuffix| && r[..SmsLimit] == text[..SmsLimit] && EndsWith(r, OptOut)
  {
    CutNoticeEndsWithOptOut();
    EndsWithAppend(text[..SmsLimit], SmsCutSuffix, OptOut);
  }

  /** A short text is kept whole, then the opt-out notice. */
  lemma KeepShape(text: string)
    requires |text| <= SmsLimit
    ensures var r := text + SmsSuffix;
      |r| == |text| + |SmsSuffix| && r[..|text|] == text && EndsWith(r, OptOut)
  {
    NoticeEndsWithOptOut();
    EndsWithAppend(text, SmsSuffix, OptOut);
  }

  /** The cut notice ends with the opt-out line. */
  lemma CutNoticeEndsWithOptOut()
    ensures EndsWith(SmsCutSuffix, OptOut)
  {
    assert SmsCutSuffix[4..] == OptOut;
  }

  /** The plain notice ends with the opt-out line. */
  lemma NoticeEndsWithOptOut()
    ensures EndsWith(SmsSuffix, OptOut)
  {
    assert SmsSuffix[1..] == OptOut;
  }

  /** Whatever comes before a string, the ending of that string stays. */
  lemma EndsWithAppend(a: string, b: string, c: string)
    requires EndsWith(b, c)
    ensures EndsWith(a + b, c)
  {
    assert (a + b)[|a + b| - |c|..] == b[|b| - |c|..];
  }

  /** The SMS text gives the message back: dropping the opt-out notice from
      a short text's SMS leaves the text, and dropping the cut notice from a
      long one leaves its first 140 characters. */
  lemma SmsTextRoundTrip(text: string)
    ensures var r := SmsText(text);
      if |text| <= SmsLimit then r[..|r| - |SmsSuffix|] == text
      else r[..|r| - |SmsCutSuffix|] == text[..SmsLimit]
  {
  }

  /** The fixed text put before and after the message on a templated
      channel other than SMS. */
  function Wrapper(channel: string): (string, string)
    requires channel in {"email", "whatsapp", "rcs"}
  {
    if channel == "email" then (EmailOpening, EmailClosing)
    else if channel == "whatsapp" then (WhatsAppOpening, WhatsAppClosing)
    else (RcsOpening, RcsClosing)
  }

  /** The text of one channel's version of the message: empty text and
      channels without a template pass through; SMS gets its opt-out notice;
      email, WhatsApp and RCS put the text between their opening and
      closing. */
  function ChannelText(channel: string, text: string): (r: string)
    ensures text == "" || channel !in TemplatedChannels ==> r == text
    ensures channel == "sms" && text != "" ==> r == SmsText(text)
    ensures channel in {"email", "whatsapp", "rcs"} && text != "" ==>
      var (opening, closing) := Wrapper(channel);
      && |r| == |opening| + |text| + |closing|
      && r[..|opening|] == opening
      && r[|opening|..|opening| + |text|] == text
      && r[|opening| + |text|..] == closing
  {
    if channel == "sms" && text != "" then SmsText(text)
    else if channel == "email" && text != "" then EmailOpening + text + EmailClosing
    else if channel == "whatsapp" && text != "" then WhatsAppOpening + text + WhatsAppClosing
    else if channel == "rcs" && text != "" then RcsOpening + text + RcsClosing
    else text
  }

  /** One channel's version of the message, as the regeneration effect
      builds it: the channel's text, no images for SMS and the message's
      images otherwise, and a subject for email only, which is the fixed
      subject when there is text and empty otherwise. */
  function FormatFor(channel: string, m: Message): (r: ChannelMessage)
    ensures r.images == if channel == "sms" then [] else m.images
    ensures r.subject.Some? <==> channel == "email"
    ensures channel == "email" ==> r.subject.value == if m.text != "" then EmailSubject else ""
    ensures m.text == "" || channel !in TemplatedChannels ==> r.text == m.text
    ensures channel == "sms" && m.text != "" ==> r.text == SmsText(m.text)
    ensures channel in {"email", "whatsapp", "rcs"} && m.text != "" ==>
      var (opening, closing) := Wrapper(channel);
      && |r.text| == |opening| + |m.text| + |closing|
      && r.text[..|opening|] == opening
      && r.text[|opening|..|opening| + |m.text|] == m.text
      && r.text[|opening| + |m.text|..] == closing
  {
    ChannelMessage(
      ChannelText(channel, m.text),
      if channel == "sms" then [] else m.images,
      if channel == "email" then Some(if m.text != "" then EmailSubject else "") else None)
  }

  /** The text between an opening and a closing, when the string starts
      with the one and ends with the other without them overlapping. */
  function Unwrap(opening: string, closing: string, t: string): (r: Option<string>)
    ensures r.Some? ==> t == opening + r.value + closing
    ensures r.None? ==> forall x: string :: t != opening + x + closing
  {
    if |opening| + |closing| <= |t| && t[..|opening|] == opening && t[|t| - |closing|..] == closing then
      var inner := t[|opening|..|t| - |closing|];
      assert t == t[..|opening|] + inner + t[|t| - |closing|..];
      Some(inner)
    else
      assert forall x: string :: var w := opening + x + closing;
        |opening| + |closing| <= |w| && w[..|opening|] == opening && w[|w| - |closing|..] == closing;
      None
  }

  /** Reading the text back from a templated channel's version gives the
      message's text, so different texts never share a channel version. */
  lemma UntemplateFormat(channel: string, m: Message)
    requires channel in {"email", "whatsapp", "rcs"} && m.text != ""
    ensures var (opening, closing) := Wrapper(channel);
      Unwrap(opening, closing, FormatFor(channel, m).text) == Some(m.text)
  {
    var (opening, closing) := Wrapper(channel);
    var t := FormatFor(channel, m).text;
    assert t == opening + m.text + closing;
    UnwrapWrapped(opening, closing, m.text);
  }

  /** Unwrapping a wrapped text gives it back. */
  lemma UnwrapWrapped(opening: string, closing: string, x: string)
    ensures Unwrap(opening, closing, opening + x + closing) == Some(x)
  {
    var t := opening + x + closing;
    assert t[..|opening|] == opening && t[|t| - |closing|..] == closing;
    assert t[|opening|..|t| - |closing|] == x;
  }

  /** A short SMS text is read back by dropping the notice, so different
      short texts never share an SMS version. */
  lemma SmsTextInjective(a: string, b: string)
    requires |a| <= SmsLimit && |b| <= SmsLimit
    requires SmsText(a) == SmsText(b)
    ensures a == b
  {
    SmsTextRoundTrip(a);
    SmsTextRoundTrip(b);
  }

  function SetOf(channels: seq<string>): set<string> {
    set c | c in channels
  }

  /** The map the component starts with: every selected channel gets the
      message's text and images unchanged, and email an empty subject. */
  function Initial(m: Message, channels: seq<string>): (r: map<string, ChannelMessage>)
    ensures r.Keys == SetOf(channels)
    ensures forall c | c in r :: r[c].text == m.text && r[c].images == m.images
    ensures forall c | c in r :: r[c].subject == if c == "email" then Some("") else None
  {
    map c | c in channels :: ChannelMessage(m.text, m.images, if c == "email" then Some("") else None)
  }

  /** The first effect: when the message has text or images, every selected
      channel gets its own version of it; otherwise nothing is regenerated. */
  function Regenerate(m: Message, channels: seq<string>): (r: Option<map<string, ChannelMessage>>)
    ensures r.None? <==> m.text == "" && m.images == []
    ensures r.Some? ==> r.value.Keys == SetOf(channels)
    ensures r.Some? ==> forall c | c in r.value :: r.value[c] == FormatFor(c, m)
    ensures r.Some? && "sms" in r.value ==> r.value["sms"].images == []
  {
    if m.text != "" || |m.images| > 0 then Some(map c | c in channels :: FormatFor(c, m))
    else None
  }

  /** What the parent is told after a change: the first selected channel's
      text and images, when that channel is a non-empty name with an entry. */
  function FirstChannelUpdate(msgs: map<string, ChannelMessage>, channels: seq<string>): (r: Option<Message>)
    ensures r.Some? <==> |channels| > 0 && channels[0] != "" && channels[0] in msgs
    ensures r.Some? ==> r.value == Message(msgs[channels[0]].text, msgs[channels[0]].images)
  {
    if |channels| > 0 && channels[0] != "" && channels[0] in msgs then
      Some(Message(msgs[channels[0]].text, msgs[channels[0]].images))
    else None
  }

  /** After a regeneration the parent receives the first channel's own
      version of the message. */
  lemma RegenerateTellsParent(m: Message, channels: seq<string>)
    requires m.text != "" || m.images != []
    requires |channels| > 0 && channels[0] != ""
    ensures var msgs := Regenerate(m, channels).value;
      var f := FormatFor(channels[0], m);
      FirstChannelUpdate(msgs, channels) == Some(Message(f.text, f.images))
  {
  }

  /** The entry a newly selected channel starts with. */
  function FreshEntry(channel: string, m: Message): (r: ChannelMessage)
    ensures r.text == m.text
    ensures r.images == if channel == "sms" then [] else m.images
    ensures r.subject == if channel == "email" then Some("") else None
  {
    ChannelMessage(m.text, if channel == "sms" then [] else m.images, if channel == "email" then Some("") else None)
  }

  /** The second effect: newly selected channels get a fresh entry, channels
      no longer selected are dropped, and the entries of channels that stay
      are untouched. */
  function Sync(msgs: map<string, ChannelMessage>, channels: seq<string>, m: Message): (r: map<string, ChannelMessage>)
    ensures r.Keys == SetOf(channels)
    ensures forall c | c in r && c in msgs :: r[c] == msgs[c]
    ensures forall c | c in r && c !in msgs :: r[c] == FreshEntry(c, m)
  {
    map c | c in channels :: if c in msgs then msgs[c] else FreshEntry(c, m)
  }

  /** Syncing twice to the same channels changes nothing the second time,
      whatever the message. */
  lemma SyncIdempotent(msgs: map<string, ChannelMessage>, channels: seq<string>, m: Message, m': Message)
    ensures Sync(Sync(msgs, channels, m), channels, m') == Sync(msgs, channels, m)
  {
  }

  /** On mount both effects set the map, and the second one, built from the
      first render's map, is applied last: syncing the initial map to the
      same channels leaves it as it was, so SMS keeps the message's images. */
  lemma MountKeepsInitial(m: Message, channels: seq<string>)
    ensures Sync(Initial(m, channels), channels, m) == Initial(m, channels)
    ensures "sms" in channels ==> Sync(Initial(m, channels), channels, m)["sms"].images == m.images
  {
  }

  /** `handleChannelMessageChange`: the edited channel's entry is replaced,
      every other entry stays, and the parent is told the first selected
      channel's text and images. */
  function EditChannel(msgs: map<string, ChannelMessage>, channels: seq<string>, channel: string, cm: ChannelMessage)
    : (out: (map<string, ChannelMessage>, Option<Message>))
    ensures out.0.Keys == msgs.Keys + {channel}
    ensures out.0[channel] == cm
    ensures forall c | c in msgs && c != channel :: out.0[c] == msgs[c]
    ensures |channels| > 0 && channels[0] == channel && channel != "" ==>
      out.1 == Some(Message(cm.text, cm.images))
    ensures |channels| > 0 && channels[0] != channel ==>
      out.1 == FirstChannelUpdate(msgs, channels)
    ensures |channels| == 0 || channels[0] == "" ==> out.1.None?
  {
    var updated := msgs[channel := cm];
    (updated, FirstChannelUpdate(updated, channels))
  }

  /** An edit and the channel sync: the next sync to the same channels keeps
      an edit of a selected channel and drops an edit of a channel that is
      not selected: the result is the sync of the unedited map with that
      channel's entry replaced, or that sync unchanged. */
  lemma EditSurvivesSync(msgs: map<string, ChannelMessage>, channels: seq<string>, channel: string,
                         cm: ChannelMessage, m: Message)
    ensures var synced := Sync(EditChannel(msgs, channels, channel, cm).0, channels, m);
      && (channel in channels ==> channel in synced && synced[channel] == cm)
      && (channel !in channels ==> channel !in synced)
      && (channel in channels ==> synced == Sync(msgs, channels, m)[channel := cm])
      && (channel !in channels ==> synced == Sync(msgs, channels, m))
  {
  }
}

=== FILE: results.dfy ===
/** Optional values and error-carrying results, standing in for JavaScript's
    `undefined`/`null` and for rejected promises or thrown errors. */
module Results {

  /** `None` is JavaScript's `undefined` or `null`; `Some` carries a value. */
  datatype Option<+T> = None | Some(value: T) {

    /** The value when present, `default` otherwise. */
    function GetOr(default: T): T {
      match this
      case Some(v) => v
      case None => default
    }
  }

  /** A settled computation: a value, or the message of the error it raised. */
  datatype Result<+T> = Ok(value: T) | Err(message: string)

  /** JavaScript's `s || null` on a string: the empty string is falsy and
      becomes `null`, every other string is kept. */
  function OrNull(s: string): (r: Option<string>)
    ensures r.None? <==> s == ""
    ensures r.Some? ==> r.value == s
  {
    if s == "" then None else Some(s)
  }
}

=== FILE: seqs.dfy ===
/** `Array.prototype.filter` and `Array.prototype.map` on sequences, with
    the facts about them that the components rely on. */
module Seqs {

  /** `r` is obtained from `s` by deleting elements: each element of `s` is
      either kept, in its place, or skipped. */
  predicate IsSubsequence<T(==)>(r: seq<T>, s: seq<T>)
    decreases |s|
  {
    || |r| == 0
    || (&& |s| > 0
        && ((|r| > 0 && r[0] == s[0] && IsSubsequence(r[1..], s[1..]))
            || IsSubsequence(r, s[1..])))
  }

  /** `s.filter(f)`. */
  function Filter<T(==)>(f: T -> bool, s: seq<T>): (r: seq<T>)
    ensures |r| <= |s|
    ensures forall i | 0 <= i < |r| :: r[i] in s && f(r[i])
    ensures forall i | 0 <= i < |s| :: f(s[i]) ==> s[i] in r
  {
    if |s| == 0 then []
    else (if f(s[0]) then [s[0]] else []) + Filter(f, s[1..])
  }

  /** The negation of a predicate, as `x => !f(x)`. */
  function Not<T>(f: T -> bool): T -> bool {
    x => !f(x)
  }

  /** `s.map(f)`. */
  function Map<A, B>(f: A -> B, s: seq<A>): (r: seq<B>)
    ensures |r| == |s|
    ensures forall i | 0 <= i < |s| :: r[i] == f(s[i])
  {
    if |s| == 0 then [] else [f(s[0])] + Map(f, s[1..])
  }

  /** Filtering keeps the surviving elements in their original order. */
  lemma {:induction false} FilterIsSubsequence<T>(f: T -> bool, s: seq<T>)
    ensures IsSubsequence(Filter(f, s), s)
  {
    if |s| > 0 {
      FilterIsSubsequence(f, s[1..]);
      var r := Filter(f, s);
      if f(s[0]) {
        assert r[0] == s[0] && r[1..] == Filter(f, s[1..]);
      } else {
        assert r == Filter(f, s[1..]);
      }
    }
  }

  /** A predicate that holds everywhere keeps the whole sequence. */
  lemma {:induction false} FilterKeepsAll<T>(f: T -> bool, s: seq<T>)
    requires forall i | 0 <= i < |s| :: f(s[i])
    ensures Filter(f, s) == s
  {
    if |s| > 0 {
      FilterKeepsAll(f, s[1..]);
      assert s == [s[0]] + s[1..];
    }
  }

  /** Filtering distributes over concatenation: what survives of `a` comes
      before what survives of `b`. */
  lemma {:induction false} FilterConcat<T>(f: T -> bool, a: seq<T>, b: seq<T>)
    ensures Filter(f, a + b) == Filter(f, a) + Filter(f, b)
  {
    if |a| == 0 {
      assert a + b == b;
    } else {
      assert (a + b)[0] == a[0];
      assert (a + b)[1..] == a[1..] + b;
      FilterConcat(f, a[1..], b);
    }
  }

  /** A map is determined by its values: when `f` sends each element of `s`
      to the element of `t` at the same position, mapping `s` gives `t`. */
  lemma MapPointwise<A, B>(f: A -> B, s: seq<A>, t: seq<B>)
    requires |s| == |t|
    requires forall k | 0 <= k < |s| :: f(s[k]) == t[k]
    ensures Map(f, s) == t
  {
  }

  /** Mapping distributes over concatenation. */
  lemma MapConcat<A, B>(f: A -> B, a: seq<A>, b: seq<A>)
    ensures Map(f, a + b) == Map(f, a) + Map(f, b)
  {
  }

  /** Filtering keeps every copy of an element the predicate accepts and no
      copy of one it rejects. */
  lemma {:induction false} FilterCount<T>(f: T -> bool, s: seq<T>, x: T)
    ensures multiset(Filter(f, s))[x] == if f(x) then multiset(s)[x] else 0
  {
    if |s| > 0 {
      FilterCount(f, s[1..], x);
      assert s == [s[0]] + s[1..];
    }
  }

  /** A predicate and its negation split a sequence between them. */
  lemma {:induction false} FilterPartition<T>(f: T -> bool, s: seq<T>)
    ensures |Filter(f, s)| + |Filter(Not(f), s)| == |s|
  {
    if |s| > 0 {
      FilterPartition(f, s[1..]);
    }
  }
}

=== FILE: strings.dfy ===
/** The few JavaScript string primitives the components use, on strings as
    sequences of code points: `trim`, the `\s` character class,
    `toLowerCase`, `includes`, `split` on one character, `Array.join`, and
    the decimal rendering of a non-negative integer inside a template
    literal. */
module Strings {

  /** The WhiteSpace and LineTerminator code points of ECMAScript: exactly
      what `String.prototype.trim` strips and what the regular-expression
      class `\s` matches. */
  predicate IsSpace(c: char) {
    || c == '\t' || c == '\n' || c == '\U{000B}' || c == '\U{000C}' || c == '\r'
    || c == ' ' || c == '\U{00A0}' || c == '\U{1680}'
    || ('\U{2000}' <= c <= '\U{200A}')
    || c == '\U{2028}' || c == '\U{2029}' || c == '\U{202F}' || c == '\U{205F}'
    || c == '\U{3000}' || c == '\U{FEFF}'
  }

  predicate AllSpace(s: string) {
    forall k | 0 <= k < |s| :: IsSpace(s[k])
  }

  predicate NoSpace(s: string) {
    forall k | 0 <= k < |s| :: !IsSpace(s[k])
  }

  /** Neither end of `s` is white space. */
  predicate IsTrimmed(s: string) {
    |s| == 0 || (!IsSpace(s[0]) && !IsSpace(s[|s| - 1]))
  }

  /** How many white-space characters `s` starts with. */
  function LeadingSpaces(s: string): (n: nat)
    ensures n <= |s|
    ensures forall k | 0 <= k < n :: IsSpace(s[k])
    ensures n < |s| ==> !IsSpace(s[n])
  {
    if |s| > 0 && IsSpace(s[0]) then 1 + LeadingSpaces(s[1..]) else 0
  }

  /** How many white-space characters `s` ends with. */
  function TrailingSpaces(s: string): (n: nat)
    ensures n <= |s|
    ensures forall k | |s| - n <= k < |s| :: IsSpace(s[k])
    ensures n < |s| ==> !IsSpace(s[|s| - 1 - n])
  {
    if |s| > 0 && IsSpace(s[|s| - 1]) then 1 + TrailingSpaces(s[..|s| - 1]) else 0
  }

  /** The leading-space count is the one position where the white space
      stops: any `n` with white space before it and none at it is that
      count. */
  lemma {:induction false} LeadingSpacesUnique(s: string, n: nat)
    requires n <= |s|
    requires forall k | 0 <= k < n :: IsSpace(s[k])
    requires n < |s| ==> !IsSpace(s[n])
    ensures LeadingSpaces(s) == n
  {
    if n > 0 {
      assert IsSpace(s[0]);
      forall k | 0 <= k < n - 1
        ensures IsSpace(s[1..][k])
      {
        assert s[1..][k] == s[k + 1];
      }
      LeadingSpacesUnique(s[1..], n - 1);
    }
  }

  /** `s` with its leading white space removed. */
  function TrimStart(s: string): (r: string)
    ensures |r| <= |s| && r == s[|s| - |r|..]
    ensures AllSpace(s[..|s| - |r|])
    ensures |r| == 0 || !IsSpace(r[0])
  {
    s[LeadingSpaces(s)..]
  }

  /** `s` with its trailing white space removed. */
  function TrimEnd(s: string): (r: string)
    ensures |r| <= |s| && r == s[..|r|]
    ensures AllSpace(s[|r|..])
    ensures |r| == 0 || !IsSpace(r[|r| - 1])
  {
    s[..|s| - TrailingSpaces(s)]
  }

  /** `String.prototype.trim`: the infix of `s` left after removing white
      space at both ends. It is empty exactly when `s` is all white space. */
  function Trim(s: string): (r: string)
    ensures IsTrimmed(r)
    ensures r == "" <==> AllSpace(s)
    ensures var k := LeadingSpaces(s);
      && k + |r| <= |s| && r == s[k..k + |r|]
      && AllSpace(s[..k]) && AllSpace(s[k + |r|..])
  {
    TrimIsInfix(s);
    TrimEmptyIffSpace(s);
    TrimEnd(TrimStart(s))
  }

  /** The trim is the infix of `s` between two runs of white space. */
  lemma TrimIsInfix(s: string)
    ensures var t := TrimStart(s);
      var r := TrimEnd(t);
      var k := |s| - |t|;
      && IsTrimmed(r)
      && k + |r| <= |s| && r == s[k..k + |r|] && AllSpace(s[..k]) && AllSpace(s[k + |r|..])
  {
    var t := TrimStart(s);
    var r := TrimEnd(t);
    var k := |s| - |t|;
    InfixOfSuffix(s, k, t, r);
    TrimEndOfTrimStart(t);
  }

  /** A prefix `r` of the suffix `t` of `s` from `k` on sits at `k` in `s`. */
  lemma InfixOfSuffix<T>(s: seq<T>, k: nat, t: seq<T>, r: seq<T>)
    requires k <= |s| && t == s[k..]
    requires |r| <= |t| && r == t[..|r|]
    ensures k + |r| <= |s| && r == s[k..k + |r|] && s[k + |r|..] == t[|r|..]
  {
  }

  /** Trimming the end of a string that starts with no white space leaves
      a trimmed string. */
  lemma TrimEndOfTrimStart(t: string)
    requires |t| == 0 || !IsSpace(t[0])
    ensures IsTrimmed(TrimEnd(t))
  {
    var r := TrimEnd(t);
    if |r| > 0 {
      assert r[0] == t[0];
    }
  }

  lemma TrimEmptyIffSpace(s: string)
    ensures TrimEnd(TrimStart(s)) == "" <==> AllSpace(s)
  {
    if TrimEnd(TrimStart(s)) == "" {
      TrimEmptyMeansSpace(s);
    }
    if AllSpace(s) {
      SpaceStartTrimsAway(s);
    }
  }

  /** An empty trim comes only from white space. */
  lemma TrimEmptyMeansSpace(s: string)
    requires TrimEnd(TrimStart(s)) == ""
    ensures AllSpace(s)
  {
    var t := TrimStart(s);
    var k := |s| - |t|;
    assert AllSpace(t) by {
      assert t[0..] == t;
    }
    assert s == s[..k] + t;
    AllSpaceConcat(s[..k], t);
  }

  /** Trimming the start of an all-white-space string leaves nothing. */
  lemma SpaceStartTrimsAway(s: string)
    requires AllSpace(s)
    ensures TrimStart(s) == ""
  {
    LeadingSpacesUnique(s, |s|);
  }

  lemma AllSpaceConcat(a: string, b: string)
    requires AllSpace(a) && AllSpace(b)
    ensures AllSpace(a + b)
  {
    forall k | 0 <= k < |a + b|
      ensures IsSpace((a + b)[k])
    {
      if k >= |a| {
        assert (a + b)[k] == b[k - |a|];
      }
    }
  }

  /** A string whose ends are not white space is its own trim. */
  lemma TrimOfTrimmed(s: string)
    requires IsTrimmed(s)
    ensures Trim(s) == s
  {
  }

  /** Leading white space does not change the trim. */
  lemma TrimAfterSpace(c: char, s: string)
    requires IsSpace(c)
    ensures Trim([c] + s) == Trim(s)
  {
    assert ([c] + s)[1..] == s;
  }

  /** Any amount of leading white space does not change the trim. */
  lemma TrimAfterSpaces(pad: string, s: string)
    requires AllSpace(pad)
    ensures Trim(pad + s) == Trim(s)
  {
    TrimStartAfterSpaces(pad, s);
  }

  lemma TrimStartAfterSpaces(pad: string, s: string)
    requires AllSpace(pad)
    ensures TrimStart(pad + s) == TrimStart(s)
  {
    var n := |pad| + LeadingSpaces(s);
    var ps := pad + s;
    forall k | 0 <= k < n
      ensures IsSpace(ps[k])
    {
      if k >= |pad| {
        assert ps[k] == s[k - |pad|];
      }
    }
    if n < |ps| {
      assert ps[n] == s[LeadingSpaces(s)];
    }
    LeadingSpacesUnique(ps, n);
    assert ps[n..] == s[LeadingSpaces(s)..];
  }

  /** Trimming adds no character. */
  lemma TrimKeepsOut(s: string, c: char)
    requires c !in s
    ensures c !in Trim(s)
  {
    TrimIsInfix(s);
    var k := |s| - |TrimStart(s)|;
    var r := Trim(s);
    assert forall m | 0 <= m < |r| :: r[m] == s[k + m];
  }

  /** ASCII case mapping of `toLowerCase`. */
  function LowerChar(c: char): (r: char)
    ensures 'A' <= c <= 'Z' ==> r as int == c as int + 32
    ensures !('A' <= c <= 'Z') ==> r == c
  {
    if 'A' <= c <= 'Z' then (c as int + 32) as char else c
  }

  /** `String.prototype.toLowerCase`, code point by code point. */
  function Lower(s: string): (r: string)
    ensures |r| == |s|
    ensures forall k | 0 <= k < |s| :: r[k] == LowerChar(s[k])
  {
    if |s| == 0 then "" else [LowerChar(s[0])] + Lower(s[1..])
  }

  predicate StartsWith(s: string, p: string) {
    |p| <= |s| && s[..|p|] == p
  }

  /** `s.includes(t)`, written as a scan from the left. */
  predicate Contains(s: string, t: string)
    ensures Contains(s, t) ==> |t| <= |s|
    ensures |t| == |s| ==> (Contains(s, t) <==> s == t)
    decreases |s|
  {
    StartsWith(s, t) || (|s| > 0 && Contains(s[1..], t))
  }

  /** `includes` holds exactly when `t` occurs at some position of `s`;
      in particular every string includes the empty string. */
  lemma {:induction false} ContainsIffOccurs(s: string, t: string)
    ensures Contains(s, t) <==> exists i :: 0 <= i <= |s| && StartsWith(s[i..], t)
    decreases |s|
  {
    assert s[0..] == s;
    if |s| > 0 {
      ContainsIffOccurs(s[1..], t);
      forall i | 1 <= i <= |s|
        ensures s[1..][i - 1..] == s[i..]
      {
      }
    }
  }

  lemma ContainsEmpty(s: string)
    ensures Contains(s, "")
  {
  }

  function CountChar(s: string, d: char): nat {
    if |s| == 0 then 0 else (if s[0] == d then 1 else 0) + CountChar(s[1..], d)
  }

  /** `Array.prototype.join(sep)` on strings. What it gives is stated by
      `JoinEnds`, and `Split` undoes it (`Split`, `SplitJoin`). */
  function Join(xs: seq<string>, sep: string): string {
    if |xs| == 0 then ""
    else if |xs| == 1 then xs[0]
    else xs[0] + sep + Join(xs[1..], sep)
  }

  /** The items stand in the joined string in order with the separator
      between neighbours: it starts with the first item, ends with the last,
      and is at least as long as any item. */
  lemma {:induction false} JoinEnds(xs: seq<string>, sep: string)
    ensures |xs| == 0 ==> Join(xs, sep) == ""
    ensures |xs| > 0 ==> |xs[0]| <= |Join(xs, sep)| && Join(xs, sep)[..|xs[0]|] == xs[0]
    ensures |xs| > 0 ==>
      var r := Join(xs, sep);
      |xs[|xs| - 1]| <= |r| && r[|r| - |xs[|xs| - 1]|..] == xs[|xs| - 1]
    ensures forall k | 0 <= k < |xs| :: |xs[k]| <= |Join(xs, sep)|
  {
    if |xs| > 1 {
      JoinEnds(xs[1..], sep);
      assert xs[1..][|xs| - 2] == xs[|xs| - 1];
      forall k | 1 <= k < |xs|
        ensures |xs[k]| <= |Join(xs, sep)|
      {
        assert xs[1..][k - 1] == xs[k];
      }
    }
  }

  /** `String.prototype.split(d)` on a one-character separator: one piece per
      separator plus one, none containing the separator, and joining the
      pieces back with the separator gives `s` again. */
  function Split(s: string, d: char): (r: seq<string>)
    ensures |r| == CountChar(s, d) + 1
    ensures forall k | 0 <= k < |r| :: d !in r[k]
    ensures Join(r, [d]) == s
  {
    if |s| == 0 then [""]
    else
      var rest := Split(s[1..], d);
      if s[0] == d then
        assert Join([""] + rest, [d]) == [d] + Join(rest, [d]) by {
          assert ([""] + rest)[1..] == rest;
        }
        assert s == [d] + s[1..];
        [""] + rest
      else
        var r := [[s[0]] + rest[0]] + rest[1..];
        assert r[1..] == rest[1..];
        assert Join(r, [d]) == s by {
          if |rest| == 1 {
            assert s == [s[0]] + s[1..];
          } else {
            assert rest == [rest[0]] + rest[1..];
            assert Join(rest, [d]) == rest[0] + [d] + Join(rest[1..], [d]);
            assert s == [s[0]] + s[1..];
          }
        }
        r
  }

  /** Splitting `a + t` where `a` has no separator glues `a` onto the first
      piece of `t`. */
  lemma {:induction false} SplitPrefix(a: string, t: string, d: char)
    requires d !in a
    ensures var r := Split(a + t, d);
      var q := Split(t, d);
      r == [a + q[0]] + q[1..]
    decreases |a|
  {
    if |a| > 0 {
      assert (a + t)[0] == a[0];
      assert (a + t)[1..] == a[1..] + t;
      SplitPrefix(a[1..], t, d);
      var q := Split(t, d);
      var rest := Split(a[1..] + t, d);
      assert rest[0] == a[1..] + q[0] && rest[1..] == q[1..];
      assert [a[0]] + (a[1..] + q[0]) == a + q[0];
    } else {
      var q := Split(t, d);
      assert a + t == t;
      assert a + q[0] == q[0];
      assert q == [q[0]] + q[1..];
    }
  }

  /** Joining comma-free pieces with a separator that starts with the split
      character and splitting again returns the first piece unchanged and
      every later piece with the rest of the separator (`pad`) in front. */
  lemma {:induction false} SplitJoin(xs: seq<string>, d: char, pad: string)
    requires |xs| >= 1
    requires forall k | 0 <= k < |xs| :: d !in xs[k]
    requires d !in pad
    ensures var r := Split(Join(xs, [d] + pad), d);
      && |r| == |xs| && r[0] == xs[0]
      && forall k | 1 <= k < |xs| :: r[k] == pad + xs[k]
    decreases |xs|
  {
    if |xs| == 1 {
      SplitOfPiece(xs[0], d);
    } else {
      SplitJoin(xs[1..], d, pad);
      SplitJoinCons(xs, d, pad);
    }
  }

  /** A piece without the separator splits into itself. */
  lemma SplitOfPiece(x: string, d: char)
    requires d !in x
    ensures Split(x, d) == [x]
  {
    SplitPrefix(x, "", d);
    assert x + "" == x;
  }

  /** The step of `SplitJoin`: from the pieces after the first to all of
      them. */
  lemma SplitJoinCons(xs: seq<string>, d: char, pad: string)
    requires |xs| >= 2
    requires forall k | 0 <= k < |xs| :: d !in xs[k]
    requires d !in pad
    requires var q := Split(Join(xs[1..], [d] + pad), d);
      && |q| == |xs| - 1 && q[0] == xs[1]
      && forall k | 1 <= k < |xs| - 1 :: q[k] == pad + xs[k + 1]
    ensures var r := Split(Join(xs, [d] + pad), d);
      && |r| == |xs| && r[0] == xs[0]
      && forall k | 1 <= k < |xs| :: r[k] == pad + xs[k]
  {
    var sep := [d] + pad;
    var tail := Join(xs[1..], sep);
    var joined := Join(xs, sep);
    JoinStep(xs, d, pad);
    SplitJoinStep(xs[0], pad, tail, d, joined);
    ConsPieces(xs, pad, Split(tail, d), Split(joined, d));
  }

  /** The index bookkeeping of `SplitJoinCons`, on plain sequences. */
  lemma ConsPieces(xs: seq<string>, pad: string, q: seq<string>, r: seq<string>)
    requires |xs| >= 2 && |q| == |xs| - 1 && q[0] == xs[1]
    requires forall k | 1 <= k < |xs| - 1 :: q[k] == pad + xs[k + 1]
    requires r == [xs[0]] + ([pad + q[0]] + q[1..])
    ensures |r| == |xs| && r[0] == xs[0]
    ensures forall k | 1 <= k < |xs| :: r[k] == pad + xs[k]
  {
    forall k | 1 <= k < |xs|
      ensures r[k] == pad + xs[k]
    {
      if k > 1 {
        assert r[k] == q[k - 1];
      }
    }
  }

  /** A join of two or more pieces is the first, the separator, and the
      join of the rest. */
  lemma JoinStep(xs: seq<string>, d: char, pad: string)
    requires |xs| >= 2
    ensures Join(xs, [d] + pad) == xs[0] + ([d] + (pad + Join(xs[1..], [d] + pad)))
  {
    var tail := Join(xs[1..], [d] + pad);
    assert ([d] + pad) + tail == [d] + (pad + tail);
  }

  /** A string that starts with the separator splits into an empty piece
      followed by the pieces of the rest. */
  lemma SplitAtSeparator(d: char, u: string)
    ensures Split([d] + u, d) == [""] + Split(u, d)
  {
    assert ([d] + u)[1..] == u;
  }

  /** Splitting a separator-free piece, the separator, a separator-free pad
      and a tail gives the piece, the pad glued to the tail's first piece,
      and the tail's other pieces. */
  lemma SplitJoinStep(x: string, pad: string, tail: string, d: char, joined: string)
    requires d !in x && d !in pad
    requires joined == x + ([d] + (pad + tail))
    ensures var q := Split(tail, d);
      Split(joined, d) == [x] + ([pad + q[0]] + q[1..])
  {
    var q := Split(tail, d);
    SplitPrefix(x, [d] + (pad + tail), d);
    SplitAtSeparator(d, pad + tail);
    SplitPrefix(pad, tail, d);
    var big := Split([d] + (pad + tail), d);
    assert big[0] == "" && big[1..] == Split(pad + tail, d);
    assert x + big[0] == x;
  }

  /** The decimal digit for `n`. */
  function DigitChar(n: nat): (c: char)
    requires n < 10
    ensures '0' <= c <= '9'
    ensures c as int - '0' as int == n
  {
    ('0' as int + n) as char
  }

  predicate AllDigits(s: string) {
    forall k | 0 <= k < |s| :: '0' <= s[k] <= '9'
  }

  /** `String(n)` for a non-negative integer: its decimal digits. */
  function NatToString(n: nat): (r: string)
    ensures |r| >= 1 && AllDigits(r)
    ensures n >= 10 ==> r[0] != '0'
  {
    if n < 10 then [DigitChar(n)] else NatToString(n / 10) + [DigitChar(n % 10)]
  }

  /** The value of a string of decimal digits. */
  function DigitsValue(s: string): nat
    requires AllDigits(s)
  {
    if |s| == 0 then 0
    else DigitsValue(s[..|s| - 1]) * 10 + (s[|s| - 1] as int - '0' as int)
  }

  /** Reading back the decimal rendering gives the number. */
  lemma {:induction false} NatToStringRoundTrip(n: nat)
    ensures DigitsValue(NatToString(n)) == n
  {
    if n >= 10 {
      NatToStringRoundTrip(n / 10);
      var s := NatToString(n);
      assert s[..|s| - 1] == NatToString(n / 10);
    }
  }

  /** Distinct numbers render differently. */
  lemma NatToStringInjective(a: nat, b: nat)
    requires NatToString(a) == NatToString(b)
    ensures a == b
  {
    NatToStringRoundTrip(a);
    NatToStringRoundTrip(b);
  }

  /** A number from 1000 to 9999 renders as exactly four digits. */
  lemma FourDigits(n: nat)
    requires 1000 <= n <= 9999
    ensures |NatToString(n)| == 4
  {
    var a := n / 10;
    var b := a / 10;
    var c := b / 10;
    assert 1 <= c < 10 && 10 <= b < 100 && 100 <= a < 1000;
    assert |NatToString(c)| == 1;
    assert |NatToString(b)| == 2;
    assert |NatToString(a)| == 3;
  }
}

=== FILE: use_campaigns.dfy ===
/** The campaigns hook (src/hooks/useCampaigns.ts): the rows of the
    `campaigns` table it keeps in memory and how each backend result
    changes them. */
module UseCampaigns {
  import opened Results
  import opened CrudList
  import Seqs

  /** The message a campaign sends: its text and image URLs. */
  datatype Message = Message(text: string, images: seq<string>)

  /** A row of the `campaigns` table (its owner and timestamps are not
      modelled). */
  datatype Campaign = Campaign(
    id: string,
    name: string,
    status: string,
    channels: seq<string>,
    message: Message,
    selectedContacts: seq<string>,
    scheduledAt: Option<string>)

  function CampaignId(c: Campaign): string {
    c.id
  }

  /** `fetchCampaigns`: the fetched rows, or none, replace the list; on a
      failure the list stays and the error is recorded; loading ends. */
  function FetchCampaigns(st: ListState<Campaign>, r: Backend<Option<seq<Campaign>>>): (st': ListState<Campaign>)
    ensures !st'.loading
    ensures r.Returned? ==> st'.items == r.data.GetOr([]) && st'.error == st.error
    ensures r == Threw(OtherValue) ==>
      st'.items == st.items && st'.error == Some("Failed to fetch campaigns")
    ensures r.Threw? && r.thrown.ErrorValue? ==>
      st'.items == st.items && st'.error == Some(r.thrown.message)
  {
    Fetch(st, r, "Failed to fetch campaigns")
  }

  /** `createCampaign`: the stored row goes in front; a failure leaves the
      list and returns the error. */
  function CreateCampaign(st: ListState<Campaign>, r: Backend<Campaign>): (out: (ListState<Campaign>, Reply<Campaign>))
    ensures r.Returned? ==> out.0.items == [r.data] + st.items && out.1 == Reply(Some(r.data), None)
    ensures r.Threw? ==>
      && out.0.items == st.items && out.1.data.None? && out.1.error == out.0.error
      && out.1.error == Some(ErrorMessage(r.thrown, "Failed to create campaign"))
    ensures r == Threw(OtherValue) ==> out.1.error == Some("Failed to create campaign")
  {
    Create(st, r, "Failed to create campaign")
  }

  /** `updateCampaign`: the rows with the given id become the returned row,
      the list keeps its length and every other row; a failure leaves the
      list and returns the error. */
  function UpdateCampaign(st: ListState<Campaign>, id: string, r: Backend<Campaign>): (out: (ListState<Campaign>, Reply<Campaign>))
    ensures r.Returned? ==>
      && |out.0.items| == |st.items|
      && (forall i | 0 <= i < |st.items| ::
            out.0.items[i] == if st.items[i].id == id then r.data else st.items[i])
      && out.1 == Reply(Some(r.data), None)
    ensures r.Threw? ==>
      && out.0.items == st.items && out.1.data.None? && out.1.error == out.0.error
      && out.1.error == Some(ErrorMessage(r.thrown, "Failed to update campaign"))
    ensures r == Threw(OtherValue) ==> out.1.error == Some("Failed to update campaign")
  {
    Update(CampaignId, st, id, r, "Failed to update campaign")
  }

  /** `deleteCampaign`: exactly the rows with the given id leave the list,
      the others keep their order; a failure leaves the list and returns
      the error. */
  function DeleteCampaign(st: ListState<Campaign>, id: string, r: Backend<()>): (out: (ListState<Campaign>, Reply<Campaign>))
    ensures r.Returned? ==>
      && (forall c | c in out.0.items :: c.id != id)
      && (forall c | c in st.items && c.id != id :: c in out.0.items)
      && Seqs.IsSubsequence(out.0.items, st.items)
      && |out.0.items| + |Seqs.Filter(HasKey(CampaignId, id), st.items)| == |st.items|
      && out.1.error.None?
    ensures r.Threw? ==>
      && out.0.items == st.items && out.1.error == out.0.error
      && out.1.error == Some(ErrorMessage(r.thrown, "Failed to delete campaign"))
    ensures r == Threw(OtherValue) ==> out.1.error == Some("Failed to delete campaign")
  {
    Delete(CampaignId, st, id, r, "Failed to delete campaign")
  }
}

=== FILE: use_contacts.dfy ===
/** The contacts hook (src/hooks/useContacts.ts): the rows of the `contacts`
    table it keeps in memory and how each backend result changes them. */
module UseContacts {
  import opened Results
  import opened CrudList
  import Seqs

  /** A row of the `contacts` table (its owner and timestamps are not
      modelled). */
  datatype Contact = Contact(
    id: string,
    name: string,
    email: Option<string>,
    phone: Option<string>,
    tags: Option<seq<string>>)

  function ContactId(c: Contact): string {
    c.id
  }

  /** `fetchContacts`: the fetched rows, or none, replace the list; on a
      failure the list stays and the error is recorded; loading ends. */
  function FetchContacts(st: ListState<Contact>, r: Backend<Option<seq<Contact>>>): (st': ListState<Contact>)
    ensures !st'.loading
    ensures r.Returned? ==> st'.items == r.data.GetOr([]) && st'.error == st.error
    ensures r == Threw(OtherValue) ==>
      st'.items == st.items && st'.error == Some("Failed to fetch contacts")
    ensures r.Threw? && r.thrown.ErrorValue? ==>
      st'.items == st.items && st'.error == Some(r.thrown.message)
  {
    Fetch(st, r, "Failed to fetch contacts")
  }

  /** `createContact`: the stored row goes in front; a failure leaves the
      list and returns the error. */
  function CreateContact(st: ListState<Contact>, r: Backend<Contact>): (out: (ListState<Contact>, Reply<Contact>))
    ensures r.Returned? ==> out.0.items == [r.data] + st.items && out.1 == Reply(Some(r.data), None)
    ensures r.Threw? ==>
      && out.0.items == st.items && out.1.data.None? && out.1.error == out.0.error
      && out.1.error == Some(ErrorMessage(r.thrown, "Failed to create contact"))
    ensures r == Threw(OtherValue) ==> out.1.error == Some("Failed to create contact")
  {
    Create(st, r, "Failed to create contact")
  }

  /** `updateContact`: the rows with the given id become the returned row,
      the list keeps its length and every other row; a failure leaves the
      list and returns the error. */
  function UpdateContact(st: ListState<Contact>, id: string, r: Backend<Contact>): (out: (ListState<Contact>, Reply<Contact>))
    ensures r.Returned? ==>
      && |out.0.items| == |st.items|
      && (forall i | 0 <= i < |st.items| ::
            out.0.items[i] == if st.items[i].id == id then r.data else st.items[i])
      && out.1 == Reply(Some(r.data), None)
    ensures r.Threw? ==>
      && out.0.items == st.items && out.1.data.None? && out.1.error == out.0.error
      && out.1.error == Some(ErrorMessage(r.thrown, "Failed to update contact"))
    ensures r == Threw(OtherValue) ==> out.1.error == Some("Failed to update contact")
  {
    Update(ContactId, st, id, r, "Failed to update contact")
  }

  /** `deleteContact`: exactly the rows with the given id leave the list,
      the others keep their order; a failure leaves the list and returns
      the error. */
  function DeleteContact(st: ListState<Contact>, id: string, r: Backend<()>): (out: (ListState<Contact>, Reply<Contact>))
    ensures r.Returned? ==>
      && (forall c | c in out.0.items :: c.id != id)
      && (forall c | c in st.items && c.id != id :: c in out.0.items)
      && Seqs.IsSubsequence(out.0.items, st.items)
      && |out.0.items| + |Seqs.Filter(HasKey(ContactId, id), st.items)| == |st.items|
      && out.1.error.None?
    ensures r.Threw? ==>
      && out.0.items == st.items && out.1.error == out.0.error
      && out.1.error == Some(ErrorMessage(r.thrown, "Failed to delete contact"))
    ensures r == Threw(OtherValue) ==> out.1.error == Some("Failed to delete contact")
  {
    Delete(ContactId, st, id, r, "Failed to delete contact")
  }
}
